=== FILE: README.md ===
# Chat protocol model

A Dafny model of a small WebSocket chat system, with proofs about it. The system has two sides:

- **The Node.js server** (`chat-server/server.js`) keeps three things:
  - a registry of users, keyed by user id;
  - a history of at most 50 accepted chat messages;
  - the set of open connections.

  It validates and relays chat frames. Every open connection gets the sender's name and the roster. A keepalive interval pings connections and terminates the ones that stay silent.
- **The Swift client** (`ChatApps/ChatApp`) has three parts:
  - a `WebSocketService` that owns the socket task and routes frames to four callbacks;
  - a `ChatViewModel` that holds the screen state and the user's actions;
  - the `Message`, `User` and `UserListResponse` wire records.

  The model also covers the two computed properties of `MessageGroupView` that decide a message group's header.

Every handler is a pure function. It takes the state and the event's inputs, and returns the new state together with what it does to the outside world, in order:

- On the server, that is a list of `Send`, `Ping` and `Terminate` actions on connections.
- On the client, it is a list of socket-task operations and callback firings.

Inputs that come from outside the code are parameters:

- fresh identifiers;
- the current time;
- random guest numbers;
- the platform's ISO-8601 parser.

A JSON document is a `Json.Value`. A frame is the value `JSON.parse` or `JSONDecoder` would produce from it, so text parsing and serialisation are not modelled. The client's text frames keep their raw text as well, because routing to the roster decoder is a substring test on that text.

Modules, one per file:

| file | module | models |
|---|---|---|
| wrappers.dfy | Wrappers | `Option` |
| json.dfy | Json | JSON values, JavaScript truthiness, typed field reads |
| text.dfy | Text | Swift trimming, `String.contains`, decimal rendering of integers |
| history.dfy | History | the 50-entry history (`push` then one `shift`) |
| registry.dfy | Registry | the server's `Map` of users, in insertion order |
| server.dfy | Server | `broadcast`, the roster, and the connection, message, close, pong and interval handlers, plus traces of events |
| messages.dfy | Messages | `Message` and its `Codable` conformance with the two date strategies |
| users.dfy | Users | `User`, its id-only `==`, and `UserListResponse` decoding |
| socket_service.dfy | SocketService | `WebSocketService` |
| message_list.dfy | MessageList | maximal runs by sender, and removal at offsets |
| view_model.dfy | ViewModel | `ChatViewModel` |
| group_view.dfy | GroupView | `MessageGroupView.senderName` and `isFromCurrentUser` |
| protocol.dfy | Protocol | what the client makes of the frames the server writes |

One consequence of the code as written is proved rather than corrected. The client encodes dates with `JSONEncoder`'s default strategy, which writes a number, but decodes them with `.iso8601`, which needs a string. So:

- A message the client encodes never decodes back (`Messages.ClientEncodingNeverDecodes`).
- A chat message a client sends with a non-zero timestamp is relayed with that number intact. No client can decode the relayed copy (`Protocol.RelayedClientMessageUndecodable`).
- Only a zero timestamp counts as missing on the server, which then stamps its own ISO-8601 string (`Protocol.ZeroTimestampRestamped`).

## Model

| member | source | states |
|---|---|---|
| Text.TrimStart | ChatApps/ChatApp/ViewModel/ChatViewModel.swift:88 | the result is a suffix of the input after a blank prefix, and does not start with whitespace or a newline |
| Text.TrimEnd | ChatApps/ChatApp/ViewModel/ChatViewModel.swift:88 | the result is a prefix of the input before a blank suffix, and does not end with whitespace or a newline |
| Text.Trim | ChatApps/ChatApp/ViewModel/ChatViewModel.swift:88 | the result is the part of the input between a blank prefix and a blank suffix, and neither starts nor ends with whitespace or a newline |
| Text.TrimEmptyIffBlank | ChatApps/ChatApp/ViewModel/ChatViewModel.swift:88 | trimming whitespace and newlines leaves nothing exactly when every character is whitespace or a newline |
| Text.Contains | ChatApps/ChatApp/Service/WebSocketService.swift:133 | the substring test used to route text frames |
| Text.ContainsIffOccurs | ChatApps/ChatApp/Service/WebSocketService.swift:133 | the text contains the pattern exactly when the pattern is the slice of the text at some position |
| Text.Decimal | chat-server/server.js:55 | the rendering of a number is a non-empty string of digits, without a leading zero, and one digit long exactly below ten |
| Text.DecimalRoundTrip | chat-server/server.js:55 | reading a rendered number back gives the number |
| Json.Truthy | chat-server/server.js:96-98 | JavaScript truthiness: `undefined`, `null`, `false`, `0` and `""` are falsy, and every object and array, even an empty one, is truthy |
| Json.Field | chat-server/server.js:96 | a property read yields a value exactly when the key is present, and then the stored value |
| Json.StringAt | ChatApps/ChatApp/Repository/Message.swift:10-12 | reading a `String` succeeds exactly when the key is present with a string value |
| Json.BoolAt | ChatApps/ChatApp/Repository/User.swift:11 | reading a `Bool` succeeds exactly when the key is present with a boolean value |
| History.Newest | chat-server/server.js:21 | keeping the newest `n` keeps `min(len, n)` entries |
| History.Push | chat-server/server.js:103-106 | from a history within the bound, one push and shift gives the newest 50 of the extended history, and the new message is last |
| History.NewestAppend | chat-server/server.js:103-106 | trimming to the newest `n`, appending, then trimming again is the same as appending and trimming once |
| History.RecordKeepsNewest | chat-server/server.js:103-106 | after any number of accepted messages the history has at most 50 entries: the newest `min(n, 50)`, in arrival order |
| Registry.Ids | chat-server/server.js:36 | the keys, one per entry, in iteration order |
| Registry.IndexOf | chat-server/server.js:109 | the first position holding the key, or none exactly when no entry holds it |
| Registry.Get | chat-server/server.js:109 | `get` finds an entry exactly when the key is present, and the entry found is in the map under that key |
| Registry.Put | chat-server/server.js:68 | after `set`, `get` of the key yields the new entry, no other key changes, a present key keeps its position, a new key goes last, and keys stay unique |
| Registry.SetOffline | chat-server/server.js:141 | the entry under the id is kept with `isOnline` false and nothing else changes; a missing id changes nothing |
| Registry.IndexOfAgrees | chat-server/server.js:109 | lookups of a key agree in registries that agree wherever that key could be found |
| Registry.GetIsTheEntry | chat-server/server.js:17 | with one entry per key, `get` yields the only entry with that key |
| Server.Broadcast | chat-server/server.js:24-32 | the payload goes exactly to the open connections not bound to the excluded user, each once, in `wss.clients` order; with no exclusion the sender is included |
| Server.RosterEntry | chat-server/server.js:36-40 | a roster entry has exactly the keys `id`, `name` and `isOnline`, taken from the account |
| Server.RosterPayload | chat-server/server.js:42-45 | the roster has exactly the keys `type` and `users`, with type `userList` and one entry per registered user, in registry order |
| Server.OrElse | chat-server/server.js:54-55 | a missing or empty query parameter is replaced by the fallback, and any other is kept |
| Server.BroadcastUserList | chat-server/server.js:35-48 | the roster goes to exactly the open connections, each once, in set order, and nothing else is sent |
| Server.Greeting | chat-server/server.js:72-84 | the joining connection gets the welcome first and then every history entry in stored order |
| Server.Join | chat-server/server.js:51-87 | the user is registered online under the parameter id or a fresh one, with no other key changed and a new key last; the connection is added open and alive; the history is unchanged; the output is the welcome, then the replay, then the roster broadcast |
| Server.JoinerReceivesRoster | chat-server/server.js:86-87 | the joining connection is among the receivers of the roster that follows its replay |
| Server.Stamp | chat-server/server.js:98-100 | a truthy timestamp is kept and otherwise replaced by the server time, with every other key unchanged |
| Server.SenderName | chat-server/server.js:109-112 | the registered name for a string sender id, or `不明` when the id is not registered or not a string |
| Server.Enhance | chat-server/server.js:110-113 | the broadcast copy keeps every key and adds or overwrites `senderName` |
| Server.Frame | chat-server/server.js:90-130 | a frame that does not parse (or parses to `null`) gets one system error to its own connection only; a frame without truthy `id`, `senderId` and `content` is dropped silently; an accepted frame is stamped and pushed to the history as parsed, without the added `senderName`, then broadcast to every open connection with the sender's registered name, and followed by the system error to its own connection when its content cannot be printed in the log line; the registry and connections never change |
| Server.HasRequiredFields | chat-server/server.js:96 | a frame is accepted when `id`, `senderId` and `content` are all truthy in the JavaScript sense, with no trimming |
| Server.StringifyThrows | chat-server/server.js:118 | printing a value in a template literal throws for an object with its own `toString` key, and for an array holding such a value at any depth |
| Server.ErrorReplyIffUnprintable | chat-server/server.js:116-128 | an accepted frame gets the system error reply exactly when its content cannot be printed |
| Server.UnprintableContentStoredAndReported | chat-server/server.js:103-128 | content `{"toString":1}` is still stored and broadcast, and the error reply comes last |
| Server.BlankContentAccepted | chat-server/server.js:96-106 | any non-empty content made only of whitespace and newlines passes the truthiness check and is stored |
| Server.Close | chat-server/server.js:133-156 | the connection leaves the set; a registered user stays registered, goes offline, and the departure notice and then the roster go to the connections still open; an unknown user causes nothing |
| Server.ClosedConnectionNotNotified | chat-server/server.js:145-154 | the closed connection receives neither the notice nor the roster |
| Server.Pong | chat-server/server.js:164-167 | a pong marks the connection alive and changes nothing else |
| Server.KeepaliveActions | chat-server/server.js:171-178 | each connection still in the set gets a terminate exactly when it is not alive and a ping exactly when it is, once, in set order |
| Server.TickConn | chat-server/server.js:172-177 | a connection that has left the set is untouched, a silent one starts closing and changes nothing else, and a live one stays in its state and is only marked not alive |
| Server.Tick | chat-server/server.js:171-178 | a silent connection is terminated and a live one is marked not alive and pinged; closed connections get nothing; every action names a connection in the set, at most one per connection, in set order; users and history are unchanged |
| Server.SilentConnectionTerminated | chat-server/server.js:173-176 | an open connection that sends no pong between two intervals is terminated at the second |
| Server.AnsweringConnectionKept | chat-server/server.js:164-176 | a connection that answers the first interval's ping is pinged, not terminated, at the second |
| Server.JoinPreservesValid | chat-server/server.js:51-87 | joining keeps registry keys unique, the history within 50, and every connection's user registered |
| Server.ClosePreservesValid | chat-server/server.js:133-156 | closing keeps the same invariant |
| Server.NothingAfterClose | chat-server/server.js:90-167 | once a connection's `close` has been handled, a repeated `close`, a message or a pong on it changes nothing and sends nothing |
| Server.HandlePreservesValid | chat-server/server.js:51-178 | every handler keeps the invariant |
| Server.RunPreservesValid | chat-server/server.js:51-178 | every trace of events keeps the invariant |
| Server.InitialValid | chat-server/server.js:17-21 | the start-up state, with no users, no history and no connections, satisfies the invariant |
| Server.RunFromInitial | chat-server/server.js:17-178 | from start-up, after any events, the invariant holds and the history is the newest 50 accepted messages in arrival order |
| Server.HandleHistory | chat-server/server.js:103-106 | one event moves the history to the newest 50 of the old history followed by what that event stores |
| Server.RunHistory | chat-server/server.js:90-106 | over any trace, the history is the newest 50 of the old history followed by the accepted messages in arrival order, and stays within 50 |
| Messages.NewMessage | ChatApps/ChatApp/Repository/Message.swift:9-15 | the memberwise initialiser keeps its arguments and leaves `isFromCurrentUser` false |
| Messages.WithFlag | ChatApps/ChatApp/Repository/Message.swift:10-15 | assigning the flag changes only the flag |
| Messages.DeferredToDate | ChatApps/ChatApp/Service/WebSocketService.swift:69 | the encoder's default date strategy writes a number |
| Messages.Iso8601 | ChatApps/ChatApp/Service/WebSocketService.swift:131 | the `.iso8601` strategy rejects any value that is not a string |
| Messages.Encode | ChatApps/ChatApp/Repository/Message.swift:17-19 | the wire form has exactly the four coding keys, never `isFromCurrentUser`, with the message's values |
| Messages.Decode | ChatApps/ChatApp/Repository/Message.swift:9-19 | decoding succeeds exactly when the three strings are present and the timestamp decodes; the result carries those values and `isFromCurrentUser` false |
| Messages.DecodeIgnoresOtherKeys | ChatApps/ChatApp/Repository/Message.swift:17-19 | objects that agree on the coding keys decode alike, so extra keys such as `senderName` are ignored |
| Messages.EncodingIgnoresFlag | ChatApps/ChatApp/Repository/Message.swift:15-19 | the flag never reaches the wire |
| Messages.RoundTrip | ChatApps/ChatApp/Repository/Message.swift:9-19 | with a date strategy that reads back what it writes, decoding an encoding gives the message back with the flag false |
| Messages.DecodedKeepsText | ChatApps/ChatApp/Repository/Message.swift:10-12 | whenever decoding an encoding succeeds, `id`, `senderId` and `content` survive |
| Messages.ClientEncodingNeverDecodes | ChatApps/ChatApp/Service/WebSocketService.swift:69-131 | the client's own encoding never decodes under its own decoder, whatever the ISO-8601 parser accepts |
| Users.NewUser | ChatApps/ChatApp/Repository/User.swift:8-11 | a user built without `isOnline` is online |
| Users.WithOnline | ChatApps/ChatApp/Repository/User.swift:9-11 | assigning presence changes neither id nor name |
| Users.Equal | ChatApps/ChatApp/Repository/User.swift:13-15 | the custom `==` compares ids only |
| Users.EqualIgnoresNameAndPresence | ChatApps/ChatApp/Repository/User.swift:13-15 | users with the same id are equal whatever their name and presence |
| Users.DifferentIdsUnequal | ChatApps/ChatApp/Repository/User.swift:13-15 | users with different ids are unequal |
| Users.EqualIsEquivalence | ChatApps/ChatApp/Repository/User.swift:13-15 | `==` is reflexive, symmetric and transitive |
| Users.DecodeUser | ChatApps/ChatApp/Repository/User.swift:8-12 | a roster entry decodes exactly when `id` and `name` are strings and `isOnline` a boolean, all present, and the user carries those values |
| Users.DecodeUserIgnoresOtherKeys | ChatApps/ChatApp/Repository/User.swift:8-12 | objects that agree on `id`, `name` and `isOnline` decode alike, so extra keys are ignored |
| Users.DecodeUsers | ChatApps/ChatApp/Repository/UserListResponse.swift:11 | an array decodes exactly when every entry does, into the users in array order |
| Users.DecodeUserList | ChatApps/ChatApp/Repository/UserListResponse.swift:9-12 | a roster decodes exactly when `type` is a string and `users` an array of decodable entries, and yields them in order |
| SocketService.IsConnected | ChatApps/ChatApp/Service/WebSocketService.swift:22-24 | the service counts as connected exactly when a task is present, whatever the socket's condition |
| SocketService.Connect | ChatApps/ChatApp/Service/WebSocketService.swift:30-58 | a scheme other than `ws`/`wss` leaves the state unchanged and fires only `onDisconnected`; otherwise a task and ping timer exist, the first receive is issued, and `onConnected` fires at once |
| SocketService.Disconnect | ChatApps/ChatApp/Service/WebSocketService.swift:60-65 | afterwards there is no task and no ping timer; a present task is cancelled, and `onDisconnected` fires |
| SocketService.DisconnectIdempotent | ChatApps/ChatApp/Service/WebSocketService.swift:60-65 | a second disconnect leaves the same state and only fires `onDisconnected` again |
| SocketService.Send | ChatApps/ChatApp/Service/WebSocketService.swift:67-84 | the default-strategy encoding is sent when a task exists, and nothing otherwise; the state is unchanged |
| SocketService.Ping | ChatApps/ChatApp/Service/WebSocketService.swift:180-186 | a ping goes out on the task if there is one; the state is unchanged |
| SocketService.PingFollowsConnection | ChatApps/ChatApp/Service/WebSocketService.swift:168-186 | after a successful connect the timer's ping goes out, and after a disconnect it sends nothing |
| SocketService.PingFailed | ChatApps/ChatApp/Service/WebSocketService.swift:181-185 | a failed ping changes nothing |
| SocketService.HandleText | ChatApps/ChatApp/Service/WebSocketService.swift:125-151 | text containing `"type":"userList"` goes only to `onUserListUpdate` with the decoded users unchanged and in order; any other text goes only to `onReceiveMessage`; a decoding failure fires nothing |
| SocketService.HandleData | ChatApps/ChatApp/Service/WebSocketService.swift:153-166 | binary data only ever fires `onReceiveMessage`, exactly when it decodes as a message |
| SocketService.ReceiveCompleted | ChatApps/ChatApp/Service/WebSocketService.swift:86-123 | a delivered frame is dispatched and the next receive issued on the current task; a failure is a disconnect |
| SocketService.UndecodableFrameKeepsLoop | ChatApps/ChatApp/Service/WebSocketService.swift:146-149 | a frame that fires nothing leaves the state alone and the loop keeps receiving |
| SocketService.BinaryFrameNeverRoster | ChatApps/ChatApp/Service/WebSocketService.swift:153-166 | a binary frame never updates the roster |
| SocketService.RosterTagIgnored | ChatApps/ChatApp/Service/WebSocketService.swift:133-137 | the roster's `type` value is never inspected |
| MessageList.FlattenEmpty | ChatApps/ChatApp/ViewModel/ChatViewModel.swift:133-137 | with no empty group, there are groups exactly when there are messages |
| MessageList.RunPartitionUnique | ChatApps/ChatApp/ViewModel/ChatViewModel.swift:113-138 | the partition of a message list into maximal runs by sender is unique |
| MessageList.AppendToLastRun | ChatApps/ChatApp/ViewModel/ChatViewModel.swift:119-121 | a message from the current group's sender extends that group and keeps a run partition |
| MessageList.AppendNewRun | ChatApps/ChatApp/ViewModel/ChatViewModel.swift:122-129 | a message from another sender opens a new group and keeps a run partition |
| MessageList.InFlatten | ChatApps/ChatApp/ViewModel/ChatViewModel.swift:113-138 | every message of every group is among the messages the groups were made from |
| MessageList.KeptIndices | ChatApps/ChatApp/ViewModel/ChatViewModel.swift:109 | the kept positions are exactly the positions not removed, increasing |
| MessageList.KeptCount | ChatApps/ChatApp/ViewModel/ChatViewModel.swift:109 | with every offset in range, exactly as many positions remain as `n` minus the number of offsets |
| MessageList.RemoveOffsets | ChatApps/ChatApp/ViewModel/ChatViewModel.swift:109 | what remains is the elements at the kept positions, in their original order |
| ViewModel.DefaultUserName | ChatApps/ChatApp/ViewModel/ChatViewModel.swift:23 | the default name is `ユーザー` followed by the digits of the random number, which read back as that number |
| ViewModel.Init | ChatApps/ChatApp/ViewModel/ChatViewModel.swift:14-29 | a new view model has no messages, text or roster, is not connected, has no error, and its user is online |
| ViewModel.ReceivedMessage | ChatApps/ChatApp/ViewModel/ChatViewModel.swift:32-41 | a received message is appended at the end, its flag true exactly when its sender is the current user, and nothing else changes |
| ViewModel.ReceivedKeepsFlags | ChatApps/ChatApp/ViewModel/ChatViewModel.swift:36-38 | a new view model, and a received message, keep every message's own-flag equal to whether its sender is the current user |
| ViewModel.Connected | ChatApps/ChatApp/ViewModel/ChatViewModel.swift:43-48 | `onConnected` sets connected and clears the error, and nothing else |
| ViewModel.Disconnected | ChatApps/ChatApp/ViewModel/ChatViewModel.swift:50-55 | `onDisconnected` clears connected and sets the reconnect message, and nothing else |
| ViewModel.UserListUpdated | ChatApps/ChatApp/ViewModel/ChatViewModel.swift:57-61 | a roster update replaces the users wholesale and leaves the messages alone |
| ViewModel.ServerUrl | ChatApps/ChatApp/ViewModel/ChatViewModel.swift:65-74 | the address has scheme `ws` and the current user's id and name as query items |
| ViewModel.Connect | ChatApps/ChatApp/ViewModel/ChatViewModel.swift:64-81 | connecting opens the task on that address and issues a receive; the view model is connected at once with no error, and nothing else changes |
| ViewModel.Disconnect | ChatApps/ChatApp/ViewModel/ChatViewModel.swift:83-85 | disconnecting cancels a present task; the view model is disconnected with the reconnect message, and nothing else changes |
| ViewModel.DisconnectTwice | ChatApps/ChatApp/ViewModel/ChatViewModel.swift:83-85 | a second disconnect changes nothing and cancels nothing |
| ViewModel.ReceiveChat | ChatApps/ChatApp/Service/WebSocketService.swift:139-144 | a decodable chat frame is appended with its flag set by sender, and receiving goes on |
| ViewModel.ReceiveRoster | ChatApps/ChatApp/Service/WebSocketService.swift:133-138 | a decodable roster frame replaces the roster, in payload order, and nothing else |
| ViewModel.ReceiveUndecodable | ChatApps/ChatApp/Service/WebSocketService.swift:146-149 | a frame that fires nothing leaves the view model unchanged, and receiving goes on |
| ViewModel.ReceiveFailure | ChatApps/ChatApp/Service/WebSocketService.swift:106-121 | a failed receive leaves the view model disconnected with the reconnect message, with no task, and with its messages kept |
| ViewModel.SendMessage | ChatApps/ChatApp/ViewModel/ChatViewModel.swift:87-105 | blank text is a no-op; otherwise one message from the current user, flagged as its own, with the untrimmed text, is appended and sent if a task exists, and the text is cleared |
| ViewModel.SendKeepsFlags | ChatApps/ChatApp/ViewModel/ChatViewModel.swift:92-97 | a sent message, from the current user and flagged as its own, keeps every flag equal to whether the sender is the current user |
| ViewModel.SendIgnoresConnectedFlag | ChatApps/ChatApp/ViewModel/ChatViewModel.swift:87-105 | sending does not depend on `isConnected` |
| ViewModel.DeleteMessages | ChatApps/ChatApp/ViewModel/ChatViewModel.swift:108-110 | exactly the given offsets are removed, the rest keep their order, and nothing else changes |
| ViewModel.DeleteKeepsFlags | ChatApps/ChatApp/ViewModel/ChatViewModel.swift:108-110 | deletion keeps every flag equal to whether the sender is the current user |
| ViewModel.MessageGroups | ChatApps/ChatApp/ViewModel/ChatViewModel.swift:113-138 | the groups, laid end to end, are the messages in order; every group is non-empty with one sender, and neighbouring groups have different senders; there are no groups exactly when there are no messages |
| GroupView.FirstIndexWithId | ChatApps/ChatApp/Presentation/MessageGroupView.swift:19 | the first position whose user has the id, or none exactly when no user has it |
| GroupView.SenderName | ChatApps/ChatApp/Presentation/MessageGroupView.swift:17-20 | `不明` for an empty group or an unknown sender, otherwise the name of the first user whose id is the first message's sender |
| GroupView.IsFromCurrentUser | ChatApps/ChatApp/Presentation/MessageGroupView.swift:13-15 | the first message's flag, false for an empty group |
| GroupView.OwnRunsExactly | ChatApps/ChatApp/Presentation/MessageGroupView.swift:13-24 | when the flags follow the senders, a maximal run is shown as the user's own, without a name header, exactly when its sender is the current user |
| Protocol.RosterDecodes | chat-server/server.js:35-48 | the server's roster has exactly the keys of `UserListResponse`, and each entry exactly the keys of `User`; it decodes at the client, with tag `userList`, to every registered user in registry order |
| Protocol.RelayedClientMessageUndecodable | chat-server/server.js:96-116 | a client message with a non-zero timestamp is stored as sent, and no relayed copy of it decodes at any client |
| Protocol.ZeroTimestampRestamped | chat-server/server.js:98-100 | a zero timestamp is replaced by the server's clock, and the relayed copy decodes exactly when that stamp parses, with the text kept |

## Left out

- Sockets, HTTP, `server.listen` and the port, `URLSession` and its timeouts, and logging (`console.log`, `print`) are not modelled. The one exception is the log line of an accepted chat frame, which can throw: `Server.StringifyThrows` and `Server.Frame` model that. The socket `error` handler only logs and is left out.
- Fresh ids (`uuidv4`, `UUID()`), the clock, `Math.random` and `Int.random` are parameters of the operations that use them.
- JSON and ISO-8601 text are not modelled. A frame is given as its parsed value, and the platform's ISO-8601 parser is a parameter. For a client text frame, the raw text and its parsed value are independent inputs.
- Server.Join: the guest number is any natural number, where `Math.floor(Math.random() * 1000)` only produces 0 to 999.
- Json.Value: JSON numbers are integers. Fractional numbers and fractional seconds in a `Date` are not represented.
- Messages.Instant: a `Date` is a whole number of seconds, and `.deferredToDate` is modelled as writing that number.
- Timers are events, not time. The 30 s interval is `Server.Tick`, and the 10 s client ping is `SocketService.Ping`. A ping timer left running by a second `connect` without a `disconnect` is not tracked.
- `DispatchQueue.main.async` hops are flattened: callbacks run in the order they fire. So the place of the next receive relative to a callback in an effect list carries no timing meaning.
- `weak self`, `deinit`, and the server's `close` event with its `clearInterval` are left out. They concern object lifetime and shutdown.
- ViewModel.Connect: the branch for a `URLComponents` that yields no URL is left out. With the fixed scheme, host, port and path it cannot be taken.
- Server.Broadcast: the branch for a payload that is already a string is left out, because every caller passes an object.
- Query parameters that repeat (`?userId=a&userId=b`), which `url.parse` turns into arrays, are not modelled. A parameter is either absent or one string.
- The socket reference the server stores in each registry entry is not modelled; connections live in `Server.State.clients`.
- SwiftUI views other than `MessageGroupView.senderName` and `isFromCurrentUser` are not part of this model. That includes the input view, whose enable condition repeats the send guard.
- Users.Equal: ids are compared code point by code point. Swift's `String` `==` uses canonical equivalence, so `"\u{E9}"` equals `"e\u{301}"` in Swift but not here. The server's `===` does compare code units, so the two are different users there.
- ViewModel.ReceivedMessage: the sender check on the own-message flag uses the same code-point comparison, not Swift's canonical equivalence.
- GroupView.OwnRunsExactly: the invariant it assumes compares senders by code points, as ViewModel.ReceivedMessage does.
- ViewModel.MessageGroups: same-sender runs, and `MessageList.IsRunPartition`, use code-point comparison. Senders that are canonically equivalent but differ in code points form one group in Swift and two here.
- GroupView.FirstIndexWithId: the id match uses code-point comparison rather than Swift's canonical equivalence.
- Text.Contains: the routing test matches code points exactly, where Swift's `contains` works on characters under canonical equivalence. With the ASCII marker, the two can differ only when a character that joins one of the marker's outer quotes into a larger grapheme cluster sits next to the marker. That is a combining mark, a zero-width joiner or another extender after the closing quote, or a Prepend character such as U+0600 before the opening quote. In those cases Swift finds no match and the model does.
- ViewModel.DeleteMessages: every offset must be in range. `remove(atOffsets:)` traps on an offset outside the array, and that trap is not modelled.

=== FILE: group_view.dfy ===
/** The two computed properties of `MessageGroupView` that decide what a group's header shows. */
module GroupView {
  import opened Wrappers
  import opened Messages
  import opened Users
  import opened MessageList
  import ViewModel

  /** The name shown when a group's sender cannot be found. */
  const UnknownName: string := "不明"

  /** `users.first(where: { $0.id == id })`, as a position. */
  function FirstIndexWithId(users: seq<User>, id: string): (k: Option<nat>)
    ensures k.Some? ==> k.value < |users| && users[k.value].id == id
    ensures k.Some? ==> forall j :: 0 <= j < k.value ==> users[j].id != id
    ensures k.None? <==> forall j :: 0 <= j < |users| ==> users[j].id != id
    decreases |users|
  {
    if |users| == 0 then None
    else if users[0].id == id then Some(0)
    else
      match FirstIndexWithId(users[1..], id)
      case Some(k) => Some(k + 1)
      case None => None
  }

  /**
   * `senderName`: the name of the first user whose id is the first
   * message's sender; "不明" for an empty group or an unknown sender.
   */
  function SenderName(group: seq<Message>, users: seq<User>): (name: string)
    ensures |group| == 0 ==> name == UnknownName
    ensures |group| > 0 && (forall j :: 0 <= j < |users| ==> users[j].id != group[0].senderId) ==> name == UnknownName
    ensures forall k :: (0 <= k < |users| && |group| > 0 && users[k].id == group[0].senderId
                         && forall j :: 0 <= j < k ==> users[j].id != group[0].senderId) ==> name == users[k].name
  {
    if |group| == 0 then UnknownName
    else
      match FirstIndexWithId(users, group[0].senderId)
      case Some(k) => users[k].name
      case None => UnknownName
  }

  /** `isFromCurrentUser`: the first message's flag, false for an empty group. */
  function IsFromCurrentUser(group: seq<Message>): (b: bool)
    ensures |group| == 0 ==> !b
    ensures |group| > 0 ==> (b <==> group[0].isFromCurrentUser)
  {
    |group| > 0 && group[0].isFromCurrentUser
  }

  /**
   * When every flag follows the sender, the header (name and alignment) of
   * each maximal run is marked as the user's own exactly when the run's
   * sender is the current user.
   */
  lemma OwnRunsExactly(vm: ViewModel.ChatViewModel, groups: seq<seq<Message>>)
    requires ViewModel.FlagsFollowSender(vm)
    requires IsRunPartition(groups, vm.messages)
    ensures forall k :: 0 <= k < |groups| ==>
      (IsFromCurrentUser(groups[k]) <==> groups[k][0].senderId == vm.currentUser.id)
  {
    forall k | 0 <= k < |groups|
      ensures IsFromCurrentUser(groups[k]) <==> groups[k][0].senderId == vm.currentUser.id
    {
      InFlatten(groups, k, 0);
    }
  }
}

=== FILE: history.dfy ===
/**
 * The server's bounded message history: an array with `push` on arrival and
 * a single `shift` whenever the length goes over `MAX_HISTORY`.
 */
module History {

  /** `MAX_HISTORY`. */
  const MaxHistory: nat := 50

  /** The last `n` elements of `s` (all of them if there are fewer). */
  function Newest<T>(s: seq<T>, n: nat): (r: seq<T>)
    ensures |r| == if |s| < n then |s| else n
  {
    if |s| <= n then s else s[|s| - n..]
  }

  /**
   * Appending one accepted message: push, then drop the oldest entry if the
   * bound is exceeded. From a history within the bound, the result is the
   * newest `MaxHistory` entries of the extended history.
   */
  function Push<T>(h: seq<T>, m: T): (r: seq<T>)
    ensures |h| <= MaxHistory ==> r == Newest(h + [m], MaxHistory) && |r| <= MaxHistory
    ensures |r| > 0 && r[|r| - 1] == m
  {
    var pushed := h + [m];
    if |pushed| > MaxHistory then pushed[1..] else pushed
  }

  /** The history after the messages `ms` have been accepted, in order, starting from an empty one. */
  function Record<T>(ms: seq<T>): seq<T> {
    if |ms| == 0 then [] else Push(Record(ms[..|ms| - 1]), ms[|ms| - 1])
  }

  /** Keeping the newest `n` twice is keeping the newest `n` once, even with more appended in between. */
  lemma NewestAppend<T>(s: seq<T>, t: seq<T>, n: nat)
    ensures Newest(Newest(s, n) + t, n) == Newest(s + t, n)
  {
    if |s| > n {
      assert Newest(s, n) + t == (s + t)[|s| - n..];
    }
  }

  /**
   * After any number of accepted messages the history is within the bound
   * and holds exactly the newest `min(n, MaxHistory)` of them, in arrival order.
   */
  lemma {:induction false} RecordKeepsNewest<T>(ms: seq<T>)
    ensures Record(ms) == Newest(ms, MaxHistory)
    ensures |Record(ms)| <= MaxHistory
  {
    if |ms| > 0 {
      var init := ms[..|ms| - 1];
      RecordKeepsNewest(init);
      NewestAppend(init, [ms[|ms| - 1]], MaxHistory);
      assert init + [ms[|ms| - 1]] == ms;
    }
  }
}

=== FILE: json.dfy ===
/**
 * Parsed JSON documents, as both the server (`JSON.parse`) and the client
 * (`JSONDecoder`) see them once the text has been read. Text parsing and
 * serialisation themselves are not modelled: a frame that does not parse is
 * represented by `None` where the handlers receive it.
 */
module Json {
  import opened Wrappers

  /** A JSON value. Numbers are kept as integers: no fractional value plays a role in the protocol. */
  datatype Value =
    | JNull
    | JBool(b: bool)
    | JNum(n: int)
    | JStr(s: string)
    | JArr(items: seq<Value>)
    | JObj(fields: map<string, Value>)

  /** Reading the property `key` of an object: a missing key reads as JavaScript's `undefined`. */
  function Field(fields: map<string, Value>, key: string): (r: Option<Value>)
    ensures r.Some? <==> key in fields
    ensures r.Some? ==> r.value == fields[key]
  {
    if key in fields then Some(fields[key]) else None
  }

  /**
   * JavaScript truthiness of a property read: `undefined`, `null`, `false`,
   * `0` and `""` are falsy, every other value (whitespace-only strings,
   * arrays and objects included) is truthy.
   */
  predicate Truthy(v: Option<Value>) {
    match v
    case None => false
    case Some(JNull) => false
    case Some(JBool(b)) => b
    case Some(JNum(n)) => n != 0
    case Some(JStr(s)) => s != ""
    case Some(_) => true
  }

  /** `JSONDecoder` reading a `String` under `key`: a missing key or a value of another type is an error. */
  function StringAt(fields: map<string, Value>, key: string): (r: Option<string>)
    ensures r.Some? <==> key in fields && fields[key].JStr?
    ensures r.Some? ==> fields[key] == JStr(r.value)
  {
    if key in fields && fields[key].JStr? then Some(fields[key].s) else None
  }

  /** `JSONDecoder` reading a `Bool` under `key`. */
  function BoolAt(fields: map<string, Value>, key: string): (r: Option<bool>)
    ensures r.Some? <==> key in fields && fields[key].JBool?
    ensures r.Some? ==> fields[key] == JBool(r.value)
  {
    if key in fields && fields[key].JBool? then Some(fields[key].b) else None
  }
}

=== FILE: message_list.dfy ===
/**
 * The two list algorithms of the view model: grouping messages into maximal
 * runs by sender, and removing messages at a set of offsets.
 */
module MessageList {
  import opened Messages

  // ---------------------------------------------------------------- grouping

  /** The groups laid end to end. */
  function Flatten(gs: seq<seq<Message>>): seq<Message>
    decreases |gs|
  {
    if |gs| == 0 then [] else Flatten(gs[..|gs| - 1]) + gs[|gs| - 1]
  }

  /** Every message of every group is in the flattened list. */
  lemma {:induction false} InFlatten(gs: seq<seq<Message>>, k: nat, j: nat)
    requires k < |gs| && j < |gs[k]|
    ensures gs[k][j] in Flatten(gs)
    decreases |gs|
  {
    var last := |gs| - 1;
    if k < last {
      assert gs[..last][k] == gs[k];
      InFlatten(gs[..last], k, j);
    } else {
      assert Flatten(gs) == Flatten(gs[..last]) + gs[last];
    }
  }

  /** All messages of `g` share the first one's sender. */
  predicate SingleSender(g: seq<Message>) {
    forall j :: 0 <= j < |g| ==> g[j].senderId == g[0].senderId
  }

  /**
   * `gs` cuts `ms` into maximal runs by sender: laid end to end the groups
   * give `ms` back in order, no group is empty, every group has a single
   * sender, and neighbouring groups have different senders.
   */
  predicate IsRunPartition(gs: seq<seq<Message>>, ms: seq<Message>) {
    && Flatten(gs) == ms
    && (forall k :: 0 <= k < |gs| ==> |gs[k]| > 0 && SingleSender(gs[k]))
    && (forall k :: 0 < k < |gs| ==> gs[k - 1][0].senderId != gs[k][0].senderId)
  }

  /** With no empty group, there are groups exactly when there are messages. */
  lemma {:induction false} FlattenEmpty(gs: seq<seq<Message>>)
    requires forall k :: 0 <= k < |gs| ==> |gs[k]| > 0
    ensures |Flatten(gs)| == 0 <==> |gs| == 0
  {
    if |gs| > 0 {
      assert |Flatten(gs)| >= |gs[|gs| - 1]|;
    }
  }

  /** Dropping the last group of a partition of `ms` partitions what precedes that group. */
  lemma PrefixIsRunPartition(gs: seq<seq<Message>>, ms: seq<Message>)
    requires IsRunPartition(gs, ms) && |gs| > 0
    ensures IsRunPartition(gs[..|gs| - 1], ms[..|ms| - |gs[|gs| - 1]|])
    ensures ms == ms[..|ms| - |gs[|gs| - 1]|] + gs[|gs| - 1]
  {
  }

  /** The last run of a partition is at least as long as the last run of any other partition of the same messages. */
  lemma LastRunNotShorter(a: seq<seq<Message>>, b: seq<seq<Message>>, ms: seq<Message>)
    requires IsRunPartition(a, ms) && IsRunPartition(b, ms)
    requires |a| > 0 && |b| > 0
    ensures |a[|a| - 1]| >= |b[|b| - 1]|
  {
    var g, h := a[|a| - 1], b[|b| - 1];
    var A := a[..|a| - 1];
    var n := |ms|;
    PrefixIsRunPartition(a, ms);
    PrefixIsRunPartition(b, ms);
    FlattenEmpty(A);
    // the first message of the last run of `a`
    assert ms[n - |g|] == g[0];
    assert |h| > |g| ==> ms[n - |g|].senderId == h[0].senderId by {
      if |h| > |g| { assert ms[n - |g|] == h[|h| - |g|]; }
    }
    // the message just before it closes the previous run, whose sender differs
    assert |h| > |g| ==> |A| > 0;
    assert |A| > 0 ==> ms[n - |g| - 1].senderId != g[0].senderId by {
      if |A| > 0 {
        var last := A[|A| - 1];
        assert Flatten(A) == Flatten(A[..|A| - 1]) + last;
        assert ms[n - |g| - 1] == last[|last| - 1];
        assert a[|a| - 2] == last;
      }
    }
  }

  /** The partition into maximal runs by sender is unique. */
  lemma {:induction false} RunPartitionUnique(a: seq<seq<Message>>, b: seq<seq<Message>>, ms: seq<Message>)
    requires IsRunPartition(a, ms) && IsRunPartition(b, ms)
    ensures a == b
    decreases |a|
  {
    FlattenEmpty(a);
    FlattenEmpty(b);
    if |ms| > 0 {
      LastRunNotShorter(a, b, ms);
      LastRunNotShorter(b, a, ms);
      var g := a[|a| - 1];
      PrefixIsRunPartition(a, ms);
      PrefixIsRunPartition(b, ms);
      var before := ms[..|ms| - |g|];
      assert g == ms[|ms| - |g|..] == b[|b| - 1];
      RunPartitionUnique(a[..|a| - 1], b[..|b| - 1], before);
      assert a == a[..|a| - 1] + [g] && b == b[..|b| - 1] + [g];
    }
  }
  /** A message from the last group's sender joins that group, and the result is still a partition into runs. */
  lemma AppendToLastRun(gs: seq<seq<Message>>, ms: seq<Message>, m: Message)
    requires IsRunPartition(gs, ms) && |gs| > 0
    requires gs[|gs| - 1][0].senderId == m.senderId
    ensures IsRunPartition(gs[..|gs| - 1] + [gs[|gs| - 1] + [m]], ms + [m])
  {
    var front, last := gs[..|gs| - 1], gs[|gs| - 1];
    var gs' := front + [last + [m]];
    assert gs'[..|gs'| - 1] == front;
    assert Flatten(gs) == Flatten(front) + last by {
      assert gs[..|gs| - 1] == front;
    }
    assert Flatten(gs') == Flatten(front) + (last + [m]);
    assert Flatten(front) + (last + [m]) == (Flatten(front) + last) + [m];
    assert SingleSender(last + [m]);
  }

  /** A message from a different sender than the last group's opens a new group. */
  lemma AppendNewRun(gs: seq<seq<Message>>, ms: seq<Message>, m: Message)
    requires IsRunPartition(gs, ms)
    requires |gs| > 0 ==> gs[|gs| - 1][0].senderId != m.senderId
    ensures IsRunPartition(gs + [[m]], ms + [m])
  {
    var gs' := gs + [[m]];
    assert gs'[..|gs'| - 1] == gs;
    assert Flatten(gs') == ms + [m];
  }


  // ---------------------------------------------------------------- deletion

  /** The offsets below `n` that are not in `offsets`, ascending. */
  function KeptIndices(n: nat, offsets: set<int>): (ks: seq<nat>)
    ensures forall k :: 0 <= k < |ks| ==> ks[k] < n && ks[k] !in offsets
    ensures forall i :: 0 <= i < n && i !in offsets ==> i in ks
    ensures forall k, l :: 0 <= k < l < |ks| ==> ks[k] < ks[l]
    decreases n
  {
    if n == 0 then []
    else
      var front := KeptIndices(n - 1, offsets);
      assert n - 1 !in front;
      front + (if n - 1 in offsets then [] else [n - 1])
  }

  /** Offsets that agree below `n` keep the same indices. */
  lemma {:induction false} KeptIndicesAgree(n: nat, o1: set<int>, o2: set<int>)
    requires forall i :: 0 <= i < n ==> (i in o1 <==> i in o2)
    ensures KeptIndices(n, o1) == KeptIndices(n, o2)
    decreases n
  {
    if n > 0 {
      KeptIndicesAgree(n - 1, o1, o2);
    }
  }

  /** Going from `n - 1` to `n` keeps one more index exactly when `n - 1` is not removed. */
  lemma KeptStep(n: nat, offsets: set<int>)
    requires n > 0
    ensures |KeptIndices(n, offsets)| == |KeptIndices(n - 1, offsets)| + (if n - 1 in offsets then 0 else 1)
  {
  }

  /** Taking out an element that is present lowers the size by one. */
  lemma RemoveOneSize(offsets: set<int>, x: int)
    requires x in offsets
    ensures |offsets - {x}| == |offsets| - 1
  {
    assert offsets == (offsets - {x}) + {x};
  }

  /** The inductive step of KeptCount: from the count for `n - 1` without `n - 1` to the count for `n`. */
  lemma KeptCountStep(n: nat, offsets: set<int>)
    requires n > 0
    requires |KeptIndices(n - 1, offsets - {n - 1})| == n - 1 - |offsets - {n - 1}|
    ensures |KeptIndices(n, offsets)| == n - |offsets|
  {
    var rest := offsets - {n - 1};
    KeptStep(n, offsets);
    KeptIndicesAgree(n - 1, offsets, rest);
    if n - 1 in offsets {
      RemoveOneSize(offsets, n - 1);
    } else {
      assert rest == offsets;
    }
  }

  /** Removing offsets that all lie below `n` keeps `n` minus their number. */
  lemma {:induction false} KeptCount(n: nat, offsets: set<int>)
    requires forall o :: o in offsets ==> 0 <= o < n
    ensures |KeptIndices(n, offsets)| == n - |offsets|
    decreases n
  {
    if n == 0 {
      assert forall o :: o !in offsets;
    } else {
      KeptCount(n - 1, offsets - {n - 1});
      KeptCountStep(n, offsets);
    }
  }

  /**
   * `remove(atOffsets:)`: what remains is the elements at the kept offsets,
   * in their original order.
   */
  function RemoveOffsets<T>(s: seq<T>, offsets: set<int>): (r: seq<T>)
    ensures |r| == |KeptIndices(|s|, offsets)|
    ensures forall k :: 0 <= k < |r| ==> r[k] == s[KeptIndices(|s|, offsets)[k]]
    decreases |s|
  {
    if |s| == 0 then []
    else
      var n := |s| - 1;
      var front := RemoveOffsets(s[..n], offsets);
      var kept := KeptIndices(n, offsets);
      assert KeptIndices(|s|, offsets) == kept + (if n in offsets then [] else [n]);
      assert forall k :: 0 <= k < |front| ==> front[k] == s[kept[k]];
      front + (if n in offsets then [] else [s[n]])
  }
}

=== FILE: messages.dfy ===
/**
 * The client's chat `Message` record and its `Codable` conformance. The
 * coding keys are `id`, `senderId`, `content` and `timestamp`; the local
 * `isFromCurrentUser` annotation is never encoded and always starts out
 * false in a decoded value.
 */
module Messages {
  import opened Wrappers
  import opened Json

  /** A Foundation `Date`, abstracted to a whole number of seconds since Foundation's reference date. */
  type Instant = int

  /** The first four fields are `let` constants; only `isFromCurrentUser` is a `var`. */
  datatype Message = Message(
    id: string,
    senderId: string,
    content: string,
    timestamp: Instant,
    isFromCurrentUser: bool)

  /** The coding keys: the only keys ever written, and the only keys read. */
  const CodingKeys: set<string> := {"id", "senderId", "content", "timestamp"}

  /** The memberwise initialiser that leaves `isFromCurrentUser` at its default. */
  function NewMessage(id: string, senderId: string, content: string, timestamp: Instant): (m: Message)
    ensures m.id == id && m.senderId == senderId && m.content == content && m.timestamp == timestamp
    ensures !m.isFromCurrentUser
  {
    Message(id, senderId, content, timestamp, false)
  }

  /** Assigning the one mutable property; every `let` field keeps its value. */
  function WithFlag(m: Message, flag: bool): (r: Message)
    ensures r.isFromCurrentUser == flag
    ensures r.id == m.id && r.senderId == m.senderId && r.content == m.content && r.timestamp == m.timestamp
    ensures r.isFromCurrentUser == m.isFromCurrentUser ==> r == m
  {
    m.(isFromCurrentUser := flag)
  }

  /** `JSONEncoder`'s default date strategy (`.deferredToDate`): the interval since the reference date, as a number. */
  function DeferredToDate(d: Instant): (v: Value)
    ensures v.JNum?
  {
    JNum(d)
  }

  /**
   * `JSONDecoder`'s `.iso8601` date strategy: the value must be a string, and
   * the platform's ISO-8601 formatter `parseIso` (not part of this model)
   * decides whether it denotes an instant. A number is a type mismatch.
   */
  function Iso8601(parseIso: string -> Option<Instant>, v: Value): (r: Option<Instant>)
    ensures !v.JStr? ==> r.None?
  {
    match v
    case JStr(s) => parseIso(s)
    case _ => None
  }

  /** The synthesised `encode(to:)` with the date strategy `encodeDate`. */
  function Encode(m: Message, encodeDate: Instant -> Value): (v: Value)
    ensures v.JObj? && v.fields.Keys == CodingKeys
    ensures "isFromCurrentUser" !in v.fields
    ensures v.fields["id"] == JStr(m.id)
    ensures v.fields["senderId"] == JStr(m.senderId)
    ensures v.fields["content"] == JStr(m.content)
    ensures v.fields["timestamp"] == encodeDate(m.timestamp)
  {
    JObj(map[
      "id" := JStr(m.id),
      "senderId" := JStr(m.senderId),
      "content" := JStr(m.content),
      "timestamp" := encodeDate(m.timestamp)])
  }

  /**
   * The synthesised `init(from:)` with the date strategy `decodeDate`: the
   * three strings and the date must all be present and well typed, every
   * other key is ignored, and `isFromCurrentUser` takes its default.
   */
  function Decode(v: Value, decodeDate: Value -> Option<Instant>): (r: Option<Message>)
    ensures r.Some? <==>
      && v.JObj?
      && StringAt(v.fields, "id").Some?
      && StringAt(v.fields, "senderId").Some?
      && StringAt(v.fields, "content").Some?
      && "timestamp" in v.fields && decodeDate(v.fields["timestamp"]).Some?
    ensures r.Some? ==>
      && !r.value.isFromCurrentUser
      && v.fields["id"] == JStr(r.value.id)
      && v.fields["senderId"] == JStr(r.value.senderId)
      && v.fields["content"] == JStr(r.value.content)
      && decodeDate(v.fields["timestamp"]) == Some(r.value.timestamp)
  {
    if !v.JObj? then None
    else
      var f := v.fields;
      match (StringAt(f, "id"), StringAt(f, "senderId"), StringAt(f, "content"), Field(f, "timestamp"))
      case (Some(id), Some(senderId), Some(content), Some(t)) =>
        (match decodeDate(t)
         case Some(d) => Some(NewMessage(id, senderId, content, d))
         case None => None)
      case _ => None
  }

  /** Two objects that agree on the coding keys decode alike: extra keys such as the server's `senderName` are ignored. */
  lemma DecodeIgnoresOtherKeys(f: map<string, Value>, g: map<string, Value>, decodeDate: Value -> Option<Instant>)
    requires forall k :: k in CodingKeys ==> (k in f <==> k in g)
    requires forall k :: k in CodingKeys && k in f ==> f[k] == g[k]
    ensures Decode(JObj(f), decodeDate) == Decode(JObj(g), decodeDate)
  {
    assert "id" in CodingKeys && "senderId" in CodingKeys && "content" in CodingKeys && "timestamp" in CodingKeys;
  }

  /** Whatever flag a message carries, its encoding is the same: the annotation never reaches the wire. */
  lemma EncodingIgnoresFlag(m: Message, flag: bool, encodeDate: Instant -> Value)
    ensures Encode(WithFlag(m, flag), encodeDate) == Encode(m, encodeDate)
  {
  }

  /**
   * With a date strategy whose decoder reads back what its encoder wrote,
   * decoding an encoded message gives it back with the annotation reset to false.
   */
  lemma RoundTrip(m: Message, encodeDate: Instant -> Value, decodeDate: Value -> Option<Instant>)
    requires decodeDate(encodeDate(m.timestamp)) == Some(m.timestamp)
    ensures Decode(Encode(m, encodeDate), decodeDate) == Some(WithFlag(m, false))
  {
  }

  /** Whenever decoding an encoded message succeeds at all, `id`, `senderId` and `content` survive. */
  lemma DecodedKeepsText(m: Message, encodeDate: Instant -> Value, decodeDate: Value -> Option<Instant>)
    requires Decode(Encode(m, encodeDate), decodeDate).Some?
    ensures var d := Decode(Encode(m, encodeDate), decodeDate).value;
      d.id == m.id && d.senderId == m.senderId && d.content == m.content && !d.isFromCurrentUser
  {
  }

  /**
   * The client encodes with `.deferredToDate` but decodes with `.iso8601`:
   * whatever the ISO-8601 formatter accepts, the client's own encoding of a
   * message never decodes, so no timestamp (nor any message) round-trips.
   */
  lemma ClientEncodingNeverDecodes(m: Message, parseIso: string -> Option<Instant>)
    ensures Decode(Encode(m, DeferredToDate), v => Iso8601(parseIso, v)) == None
  {
    var v := Encode(m, DeferredToDate);
    assert v.fields["timestamp"].JNum?;
  }
}

=== FILE: protocol.dfy ===
/**
 * Properties of the protocol as a whole: what the client makes of the
 * frames the server writes.
 */
module Protocol {
  import opened Wrappers
  import opened Json
  import opened Messages
  import opened Users
  import Registry
  import Server
  import History

  /** The client's picture of a registered account. */
  function AsUser(a: Registry.Account): (u: User)
    ensures u.id == a.id && u.name == a.name && u.isOnline == a.isOnline
  {
    User(a.id, a.name, a.isOnline)
  }

  /** The roster the server broadcasts decodes at the client to every registered user, in registry order. */
  lemma RosterDecodes(users: Registry.Registry)
    ensures Server.RosterPayload(users).fields.Keys == ResponseKeys
    ensures forall i :: 0 <= i < |users| ==> Server.RosterEntry(users[i]).fields.Keys == UserKeys
    ensures var r := DecodeUserList(Server.RosterPayload(users));
      && r.Some? && r.value.kind == "userList"
      && |r.value.users| == |users|
      && forall i :: 0 <= i < |users| ==> r.value.users[i] == AsUser(users[i])
  {
    var v := Server.RosterPayload(users);
    var items := v.fields["users"].items;
    forall i | 0 <= i < |items|
      ensures DecodeUser(items[i]) == Some(AsUser(users[i]))
    {
      assert items[i] == Server.RosterEntry(users[i]);
    }
  }

  /**
   * A message a client sends with a non-zero timestamp is stored and relayed
   * with its numeric timestamp intact, and no client can decode the relayed
   * frame, since the client decoder expects an ISO-8601 string there.
   */
  lemma RelayedClientMessageUndecodable(s: Server.State, c: nat, m: Message, errorId: string, now: string,
                                        parseIso: string -> Option<Instant>)
    requires c < |s.clients|
    requires m.id != "" && m.senderId != "" && m.content != ""
    requires m.timestamp != 0
    ensures var r := Server.Frame(s, c, Some(Encode(m, DeferredToDate)), errorId, now);
      && r.state.history == History.Push(s.history, Encode(m, DeferredToDate))
      && forall k :: 0 <= k < |r.out| ==> r.out[k].Send? && Decode(r.out[k].payload, v => Iso8601(parseIso, v)).None?
  {
    var v := Encode(m, DeferredToDate);
    assert Server.HasRequiredFields(v.fields);
    assert Server.Stamp(v.fields, now) == v.fields;
  }

  /**
   * A client message whose timestamp is the zero instant counts as having no
   * timestamp: the server stamps it with its own clock, and a client decodes
   * the relayed frame exactly when that stamp parses, getting back the text.
   */
  lemma ZeroTimestampRestamped(s: Server.State, c: nat, m: Message, errorId: string, now: string,
                               parseIso: string -> Option<Instant>)
    requires c < |s.clients|
    requires m.id != "" && m.senderId != "" && m.content != ""
    requires m.timestamp == 0
    ensures var r := Server.Frame(s, c, Some(Encode(m, DeferredToDate)), errorId, now);
      forall k :: 0 <= k < |r.out| ==>
        var d := Decode(r.out[k].payload, v => Iso8601(parseIso, v));
        && (d.Some? <==> parseIso(now).Some?)
        && (d.Some? ==> d.value.id == m.id && d.value.senderId == m.senderId && d.value.content == m.content
                        && d.value.timestamp == parseIso(now).value && !d.value.isFromCurrentUser)
  {
    var v := Encode(m, DeferredToDate);
    assert Server.HasRequiredFields(v.fields);
    var stored := Server.Stamp(v.fields, now);
    assert stored["timestamp"] == JStr(now);
    var enhanced := Server.Enhance(stored, Server.SenderName(s.users, Field(stored, "senderId")));
    assert enhanced["timestamp"] == JStr(now);
    assert enhanced["id"] == JStr(m.id) && enhanced["senderId"] == JStr(m.senderId) && enhanced["content"] == JStr(m.content);
  }
}

=== FILE: registry.dfy ===
/**
 * The server's user registry: a JavaScript `Map` from user id to user
 * record. A `Map` iterates in first-insertion order, and setting a key that
 * is already present replaces its value in place, so the registry is modelled
 * as the sequence of its entries in that order.
 */
module Registry {
  import opened Wrappers

  /** A registry value. The socket reference the server also stores there is not modelled. */
  datatype Account = Account(id: string, name: string, isOnline: bool)

  /** The entries of the map, in iteration order. */
  type Registry = seq<Account>

  /** The keys, in iteration order. */
  function Ids(r: Registry): (ids: seq<string>)
    ensures |ids| == |r|
    ensures forall i :: 0 <= i < |r| ==> ids[i] == r[i].id
  {
    seq(|r|, i requires 0 <= i < |r| => r[i].id)
  }

  /** A map holds at most one entry per key. */
  predicate Unique(r: Registry) {
    forall i, j :: 0 <= i < j < |r| ==> r[i].id != r[j].id
  }

  /** The position of the entry for `id`, if any. */
  function IndexOf(r: Registry, id: string): (k: Option<nat>)
    ensures k.Some? ==> k.value < |r| && r[k.value].id == id
    ensures k.Some? ==> forall i :: 0 <= i < k.value ==> r[i].id != id
    ensures k.None? <==> forall i :: 0 <= i < |r| ==> r[i].id != id
    decreases |r|
  {
    if |r| == 0 then None
    else if r[0].id == id then Some(0)
    else
      match IndexOf(r[1..], id)
      case Some(k) => Some(k + 1)
      case None => None
  }

  /** `users.get(id)`. */
  function Get(r: Registry, id: string): (a: Option<Account>)
    ensures a.Some? <==> id in Ids(r)
    ensures a.Some? ==> a.value in r && a.value.id == id
  {
    match IndexOf(r, id)
    case Some(k) => Some(r[k])
    case None => None
  }

  /** `users.has(id)`. */
  predicate Has(r: Registry, id: string) {
    Get(r, id).Some?
  }

  /**
   * `users.set(a.id, a)`: afterwards `get(a.id)` yields `a`, no other key
   * changes, and the key order is kept, a new key going last.
   */
  function Put(r: Registry, a: Account): (r': Registry)
    ensures Unique(r) ==> Unique(r')
    ensures Get(r', a.id) == Some(a)
    ensures forall id :: id != a.id ==> Get(r', id) == Get(r, id)
    ensures Ids(r') == if Has(r, a.id) then Ids(r) else Ids(r) + [a.id]
  {
    match IndexOf(r, a.id)
    case Some(k) =>
      var r' := r[k := a];
      assert Ids(r') == Ids(r);
      forall id | id != a.id ensures Get(r', id) == Get(r, id) {
        IndexOfAgrees(r, r', id);
      }
      r'
    case None =>
      var r' := r + [a];
      assert Ids(r') == Ids(r) + [a.id];
      assert IndexOf(r', a.id) == Some(|r|) by {
        assert r'[|r|].id == a.id;
        assert forall i :: 0 <= i < |r| ==> r'[i].id != a.id;
      }
      forall id | id != a.id ensures Get(r', id) == Get(r, id) {
        IndexOfAgrees(r, r', id);
      }
      r'
  }

  /**
   * The object stored under `id` has its `isOnline` property cleared
   * (`users.get(id).isOnline = false`); no key, name or other entry changes.
   * A missing key leaves the registry as it is.
   */
  function SetOffline(r: Registry, id: string): (r': Registry)
    ensures Ids(r') == Ids(r)
    ensures Unique(r) ==> Unique(r')
    ensures Has(r, id) ==> Get(r', id) == Some(Get(r, id).value.(isOnline := false))
    ensures !Has(r, id) ==> r' == r
    ensures forall other :: other != id ==> Get(r', other) == Get(r, other)
  {
    match Get(r, id)
    case Some(a) => Put(r, a.(isOnline := false))
    case None => r
  }

  /** Lookups of a key agree in two registries that agree entry by entry wherever an entry could be that key's. */
  lemma {:induction false} IndexOfAgrees(r: Registry, r': Registry, id: string)
    requires |r| <= |r'|
    requires forall i :: 0 <= i < |r| ==> (r[i].id == id <==> r'[i].id == id)
    requires forall i :: 0 <= i < |r| && r[i].id == id ==> r[i] == r'[i]
    requires forall i :: |r| <= i < |r'| ==> r'[i].id != id
    ensures Get(r, id) == Get(r', id)
    decreases |r|
  {
    if |r| == 0 {
      assert IndexOf(r', id).None?;
    } else if r[0].id != id {
      IndexOfAgrees(r[1..], r'[1..], id);
    }
  }

  /** In a registry with one entry per key, the entry found for `id` is the only one with that key. */
  lemma GetIsTheEntry(r: Registry, id: string, i: nat)
    requires Unique(r)
    requires i < |r| && r[i].id == id
    ensures Get(r, id) == Some(r[i])
  {
  }
}

=== FILE: server.dfy ===
/**
 * The chat server's handlers as pure state transitions. A handler takes the
 * server state and the event's inputs (the fresh identifiers `uuidv4` would
 * produce and the `toISOString` text of the current time included) and
 * returns the new state together with the actions on connections it
 * performs, in order.
 */
module Server {
  import opened Wrappers
  import opened Json
  import Text
  import opened Registry
  import History

  /** The `readyState` of a socket. A `Closed` connection has left `wss.clients`. */
  datatype ReadyState = Open | Closing | Closed

  /** A connection of `wss.clients`: the user id bound to it, its state and its keepalive flag. */
  datatype Conn = Conn(userId: string, readyState: ReadyState, isAlive: bool)

  /**
   * The registry, the history, and the connections in the order the server
   * accepted them, which is the order `wss.clients` iterates in; a
   * connection is identified by its position.
   */
  datatype State = State(users: Registry, history: seq<Value>, clients: seq<Conn>)

  /** The state at start-up. */
  const Initial: State := State([], [], [])

  /** What a handler does to a connection: `send` a payload, `ping` it, or `terminate` it. */
  datatype Action = Send(to: nat, payload: Value) | Ping(to: nat) | Terminate(to: nat)

  /** A handler's result. */
  datatype Step = Step(state: State, out: seq<Action>)

  /** The sender id of the server's own messages. */
  const SystemSender: string := "system"

  /** The sender name given to a message whose sender is not registered. */
  const UnknownSender: string := "不明"

  /** The content of the reply to a frame the server could not process. */
  const ProcessingError: string := "エラー: メッセージを処理できませんでした。"

  /** The content of the welcome message sent to a joining connection. */
  function WelcomeText(name: string): string {
    name + "さん、チャットに接続しました。"
  }

  /** The content of the notice broadcast when a connection closes. */
  function DepartureText(name: string): string {
    name + "さんが退室しました。"
  }

  /** The name of a user who connects without one: "ゲスト" followed by the random number `k`. */
  function GuestName(k: nat): string {
    "ゲスト" + Text.Decimal(k)
  }

  /** A message from the server itself, with the `toISOString` text `now` as its timestamp. */
  function SystemMessage(id: string, content: string, now: string): Value {
    JObj(map[
      "id" := JStr(id),
      "senderId" := JStr(SystemSender),
      "content" := JStr(content),
      "timestamp" := JStr(now)])
  }

  /** The invariant every handler keeps. */
  ghost predicate Valid(s: State) {
    && Unique(s.users)
    && |s.history| <= History.MaxHistory
    && forall c :: 0 <= c < |s.clients| ==> Has(s.users, s.clients[c].userId)
  }

  // ---------------------------------------------------------------- broadcast

  /** Whether `broadcast(data, exclude)` writes to `conn`: it must be open and not bound to the excluded user. */
  predicate Receives(conn: Conn, exclude: Option<string>) {
    conn.readyState == Open && (exclude.None? || conn.userId != exclude.value)
  }

  /**
   * `broadcast(payload, exclude)`: one write of `payload` to exactly the
   * open connections not bound to `exclude`, each once, in the order of
   * `wss.clients`. With no exclusion (the default `null`), every open
   * connection receives it, the sender's own included.
   */
  function Broadcast(clients: seq<Conn>, payload: Value, exclude: Option<string>): (out: seq<Action>)
    ensures forall k :: 0 <= k < |out| ==> out[k].Send? && out[k].payload == payload && out[k].to < |clients|
    ensures forall c :: 0 <= c < |clients| ==> (Send(c, payload) in out <==> Receives(clients[c], exclude))
    ensures forall k, l :: 0 <= k < l < |out| ==> out[k].to < out[l].to
    decreases |clients|
  {
    if |clients| == 0 then []
    else
      var n := |clients| - 1;
      var front := Broadcast(clients[..n], payload, exclude);
      var out := front + (if Receives(clients[n], exclude) then [Send(n, payload)] else []);
      assert forall c :: 0 <= c < n ==> clients[..n][c] == clients[c];
      assert Send(n, payload) !in front;
      out
  }

  /** A roster entry: only `id`, `name` and `isOnline` of the stored user. */
  function RosterEntry(a: Account): (v: Value)
    ensures v.JObj? && v.fields.Keys == {"id", "name", "isOnline"}
    ensures v.fields["id"] == JStr(a.id) && v.fields["name"] == JStr(a.name) && v.fields["isOnline"] == JBool(a.isOnline)
  {
    JObj(map["id" := JStr(a.id), "name" := JStr(a.name), "isOnline" := JBool(a.isOnline)])
  }

  /** The payload of `broadcastUserList`: `{type: 'userList', users}` with one entry per registered user, in registry order. */
  function RosterPayload(users: Registry): (v: Value)
    ensures v.JObj? && v.fields.Keys == {"type", "users"}
    ensures v.fields["type"] == JStr("userList")
    ensures v.fields["users"].JArr? && |v.fields["users"].items| == |users|
    ensures forall i :: 0 <= i < |users| ==> v.fields["users"].items[i] == RosterEntry(users[i])
  {
    JObj(map[
      "type" := JStr("userList"),
      "users" := JArr(seq(|users|, i requires 0 <= i < |users| => RosterEntry(users[i])))])
  }

  /** `broadcastUserList()`: the roster to every open connection. */
  function BroadcastUserList(s: State): (out: seq<Action>)
    ensures forall a :: a in out ==> a.Send? && a.payload == RosterPayload(s.users)
    ensures forall c :: 0 <= c < |s.clients| ==> (Send(c, RosterPayload(s.users)) in out <==> s.clients[c].readyState == Open)
    ensures forall k :: 0 <= k < |out| ==> out[k].to < |s.clients|
    ensures forall k, l :: 0 <= k < l < |out| ==> out[k].to < out[l].to
  {
    Broadcast(s.clients, RosterPayload(s.users), None)
  }

  // ---------------------------------------------------------------- connection

  /** `parameters.x || fallback`: a missing or empty query parameter is replaced by the fallback. */
  function OrElse(param: Option<string>, fallback: string): (r: string)
    ensures param.Some? && param.value != "" ==> r == param.value
    ensures param.None? || param.value == "" ==> r == fallback
  {
    if param.Some? && param.value != "" then param.value else fallback
  }

  /** The welcome message, then every history entry in stored order, all to connection `c`. */
  function Greeting(c: nat, welcome: Value, history: seq<Value>): (out: seq<Action>)
    ensures |out| == 1 + |history|
    ensures out[0] == Send(c, welcome)
    ensures forall i :: 0 <= i < |history| ==> out[1 + i] == Send(c, history[i])
  {
    [Send(c, welcome)] + seq(|history|, i requires 0 <= i < |history| => Send(c, history[i]))
  }

  /**
   * The `connection` handler. The user id and name come from the query
   * parameters, falling back to a fresh id and a guest name. The user is
   * registered online under that id (replacing an earlier entry in place),
   * the connection joins `wss.clients` open and alive, and then the new
   * connection gets the welcome and the history replay, after which the
   * roster goes to every open connection, the new one included.
   */
  function Join(s: State, userIdParam: Option<string>, userNameParam: Option<string>,
                freshUserId: string, guestNumber: nat, welcomeId: string, now: string): (r: Step)
    ensures var id := OrElse(userIdParam, freshUserId);
      var name := OrElse(userNameParam, GuestName(guestNumber));
      && Get(r.state.users, id) == Some(Account(id, name, true))
      && (forall other :: other != id ==> Get(r.state.users, other) == Get(s.users, other))
      && Ids(r.state.users) == (if Has(s.users, id) then Ids(s.users) else Ids(s.users) + [id])
      && r.state.history == s.history
      && r.state.clients == s.clients + [Conn(id, Open, true)]
      && r.out == Greeting(|s.clients|, SystemMessage(welcomeId, WelcomeText(name), now), s.history)
                  + BroadcastUserList(r.state)
  {
    var id := OrElse(userIdParam, freshUserId);
    var name := OrElse(userNameParam, GuestName(guestNumber));
    var users := Put(s.users, Account(id, name, true));
    var clients := s.clients + [Conn(id, Open, true)];
    var s' := State(users, s.history, clients);
    Step(s', Greeting(|s.clients|, SystemMessage(welcomeId, WelcomeText(name), now), s.history) + BroadcastUserList(s'))
  }

  /** The joining connection is among the receivers of the roster that follows its replay. */
  lemma JoinerReceivesRoster(s: State, userIdParam: Option<string>, userNameParam: Option<string>,
                             freshUserId: string, guestNumber: nat, welcomeId: string, now: string)
    ensures var r := Join(s, userIdParam, userNameParam, freshUserId, guestNumber, welcomeId, now);
      Send(|s.clients|, RosterPayload(r.state.users)) in r.out[1 + |s.history|..]
  {
    var r := Join(s, userIdParam, userNameParam, freshUserId, guestNumber, welcomeId, now);
    var g := Greeting(|s.clients|, SystemMessage(welcomeId, WelcomeText(OrElse(userNameParam, GuestName(guestNumber))), now), s.history);
    assert r.out[1 + |s.history|..] == BroadcastUserList(r.state) by {
      assert r.out == g + BroadcastUserList(r.state);
    }
    assert Receives(r.state.clients[|s.clients|], None);
  }

  // ---------------------------------------------------------------- messages

  /** `message.id && message.senderId && message.content`: JavaScript truthiness, with no trimming. */
  predicate HasRequiredFields(fields: map<string, Value>) {
    && Truthy(Field(fields, "id"))
    && Truthy(Field(fields, "senderId"))
    && Truthy(Field(fields, "content"))
  }

  /** A falsy `timestamp` (missing, empty, `0`, `false` or `null`) is replaced by the server time; a truthy one is kept. */
  function Stamp(fields: map<string, Value>, now: string): (f: map<string, Value>)
    ensures f.Keys == fields.Keys + {"timestamp"}
    ensures forall k :: k in fields && k != "timestamp" ==> f[k] == fields[k]
    ensures Truthy(Field(fields, "timestamp")) ==> f == fields
    ensures !Truthy(Field(fields, "timestamp")) ==> f["timestamp"] == JStr(now)
  {
    if Truthy(Field(fields, "timestamp")) then fields else fields["timestamp" := JStr(now)]
  }

  /**
   * The sender name attached to a broadcast: the registered name for the
   * sender id (only a string can be a registry key), or "不明" otherwise.
   */
  function SenderName(users: Registry, senderId: Option<Value>): (name: string)
    ensures senderId.Some? && senderId.value.JStr? && Has(users, senderId.value.s) ==>
      name == Get(users, senderId.value.s).value.name
    ensures !(senderId.Some? && senderId.value.JStr? && Has(users, senderId.value.s)) ==>
      name == UnknownSender
  {
    match senderId
    case Some(JStr(id)) => (match Get(users, id) case Some(a) => a.name case None => UnknownSender)
    case _ => UnknownSender
  }

  /** `{...message, senderName}`: every key kept, `senderName` added or overwritten. */
  function Enhance(fields: map<string, Value>, name: string): (f: map<string, Value>)
    ensures f.Keys == fields.Keys + {"senderName"}
    ensures f["senderName"] == JStr(name)
    ensures forall k :: k in fields && k != "senderName" ==> f[k] == fields[k]
  {
    fields["senderName" := JStr(name)]
  }

  /**
   * Whether the template literal `${v}` throws. JSON text cannot produce a
   * callable value, so an object with its own `toString` key has no callable
   * `toString`, and `valueOf` (its own key, or the inherited one, which
   * returns the object itself) yields no primitive either: a TypeError. Any
   * other object prints as `[object Object]`. An array prints by joining its
   * elements, so it throws exactly when one of them does; strings, numbers,
   * booleans and `null` always print.
   */
  predicate StringifyThrows(v: Value)
    decreases v
  {
    match v
    case JObj(fields) => "toString" in fields
    case JArr(items) => exists i :: 0 <= i < |items| && StringifyThrows(items[i])
    case _ => false
  }

  /** The reply to a frame the server could not process, sent to connection `c` alone. */
  function ErrorReply(c: nat, errorId: string, now: string): Action {
    Send(c, SystemMessage(errorId, ProcessingError, now))
  }

  /**
   * The `message` handler of connection `c`. `data` is what `JSON.parse`
   * returned, `None` when it threw. An exception (an unparseable frame, or
   * the frame `null`, whose property read throws) is answered by one system
   * error message to `c` alone. A parsed frame without truthy `id`,
   * `senderId` and `content` is dropped without reply. An accepted frame is
   * stamped if needed, stored without a sender name, and broadcast to every
   * open connection with the sender's registered name attached; if its
   * content then cannot be printed in the log line, the exception is caught
   * after the broadcast and the error message goes to `c` as well.
   */
  function Frame(s: State, c: nat, data: Option<Value>, errorId: string, now: string): (r: Step)
    requires c < |s.clients|
    ensures data.None? || data == Some(JNull) ==>
      r.state == s && r.out == [ErrorReply(c, errorId, now)]
    ensures data.Some? && data.value != JNull && !(data.value.JObj? && HasRequiredFields(data.value.fields)) ==>
      r.state == s && r.out == []
    ensures data.Some? && data.value.JObj? && HasRequiredFields(data.value.fields) ==>
      var stored := Stamp(data.value.fields, now);
      && r.state.users == s.users
      && r.state.clients == s.clients
      && r.state.history == History.Push(s.history, JObj(stored))
      && r.out == Broadcast(s.clients, JObj(Enhance(stored, SenderName(s.users, Field(stored, "senderId")))), None)
                  + (if StringifyThrows(data.value.fields["content"]) then [ErrorReply(c, errorId, now)] else [])
  {
    match data
    case None => Step(s, [ErrorReply(c, errorId, now)])
    case Some(JNull) => Step(s, [ErrorReply(c, errorId, now)])
    case Some(JObj(fields)) =>
      if HasRequiredFields(fields) then
        var stored := Stamp(fields, now);
        var enhanced := Enhance(stored, SenderName(s.users, Field(stored, "senderId")));
        var logFailed := if StringifyThrows(fields["content"]) then [ErrorReply(c, errorId, now)] else [];
        Step(s.(history := History.Push(s.history, JObj(stored))), Broadcast(s.clients, JObj(enhanced), None) + logFailed)
      else Step(s, [])
    case Some(_) => Step(s, [])
  }

  /** The server checks only truthiness: any non-empty content of whitespace and newlines, which the client's trim guard would never send, is stored and broadcast. */
  lemma BlankContentAccepted(s: State, c: nat, id: string, senderId: string, content: string, errorId: string, now: string)
    requires c < |s.clients|
    requires id != "" && senderId != ""
    requires content != [] && Text.IsBlank(content)
    ensures var f := map["id" := JStr(id), "senderId" := JStr(senderId), "content" := JStr(content)];
      var r := Frame(s, c, Some(JObj(f)), errorId, now);
      |r.state.history| > 0 && r.state.history[|r.state.history| - 1].fields["content"] == JStr(content)
  {
  }
  /**
   * An accepted frame is answered with the error message exactly when its
   * content cannot be printed; the broadcast copy, which carries
   * `senderName`, is never mistaken for that reply.
   */
  lemma ErrorReplyIffUnprintable(s: State, c: nat, fields: map<string, Value>, errorId: string, now: string)
    requires c < |s.clients|
    requires HasRequiredFields(fields)
    ensures ErrorReply(c, errorId, now) in Frame(s, c, Some(JObj(fields)), errorId, now).out
            <==> StringifyThrows(fields["content"])
  {
    var stored := Stamp(fields, now);
    var enhanced := JObj(Enhance(stored, SenderName(s.users, Field(stored, "senderId"))));
    var b := Broadcast(s.clients, enhanced, None);
    assert "senderName" !in SystemMessage(errorId, ProcessingError, now).fields;
    assert ErrorReply(c, errorId, now).payload != enhanced;
  }

  /** A frame whose content is an object with its own `toString` key is stored and broadcast, and then answered with the error message. */
  lemma UnprintableContentStoredAndReported(s: State, c: nat, errorId: string, now: string)
    requires c < |s.clients|
    ensures var f := map["id" := JStr("1"), "senderId" := JStr("u"), "content" := JObj(map["toString" := JNum(1)])];
      var r := Frame(s, c, Some(JObj(f)), errorId, now);
      && r.state.history == History.Push(s.history, JObj(Stamp(f, now)))
      && |r.out| > 0 && r.out[|r.out| - 1] == ErrorReply(c, errorId, now)
  {
  }


  // ---------------------------------------------------------------- close

  /**
   * The `close` handler of connection `c`: the connection has left
   * `wss.clients`; its user stays registered but goes offline, and the
   * departure notice and then the roster go to every connection still open.
   */
  function Close(s: State, c: nat, noticeId: string, now: string): (r: Step)
    requires c < |s.clients|
    ensures r.state.clients == s.clients[c := s.clients[c].(readyState := Closed)]
    ensures r.state.history == s.history
    ensures var id := s.clients[c].userId;
      Has(s.users, id) ==>
        && r.state.users == SetOffline(s.users, id)
        && r.out == Broadcast(r.state.clients, SystemMessage(noticeId, DepartureText(Get(s.users, id).value.name), now), None)
                    + BroadcastUserList(r.state)
    ensures !Has(s.users, s.clients[c].userId) ==> r.state.users == s.users && r.out == []
  {
    var id := s.clients[c].userId;
    var clients := s.clients[c := s.clients[c].(readyState := Closed)];
    match Get(s.users, id)
    case Some(a) =>
      var s' := State(SetOffline(s.users, id), s.history, clients);
      Step(s', Broadcast(clients, SystemMessage(noticeId, DepartureText(a.name), now), None) + BroadcastUserList(s'))
    case None => Step(s.(clients := clients), [])
  }

  /** A closed connection receives neither the departure notice nor the roster that follow its close. */
  lemma ClosedConnectionNotNotified(s: State, c: nat, noticeId: string, now: string)
    requires c < |s.clients|
    ensures forall a :: a in Close(s, c, noticeId, now).out ==> a.to != c
  {
    var r := Close(s, c, noticeId, now);
    var id := s.clients[c].userId;
    if Has(s.users, id) {
      var notice := SystemMessage(noticeId, DepartureText(Get(s.users, id).value.name), now);
      var b1 := Broadcast(r.state.clients, notice, None);
      var b2 := BroadcastUserList(r.state);
      assert r.out == b1 + b2;
      assert !Receives(r.state.clients[c], None);
      forall a | a in r.out ensures a.to != c {
        if a in b1 {
          var k :| 0 <= k < |b1| && b1[k] == a;
        } else {
          var k :| 0 <= k < |b2| && b2[k] == a;
        }
      }
    }
  }

  // ---------------------------------------------------------------- keepalive

  /** The `pong` handler of connection `c`: it is alive again. */
  function Pong(s: State, c: nat): (r: Step)
    requires c < |s.clients|
    ensures r.state.clients == s.clients[c := s.clients[c].(isAlive := true)]
    ensures r.state.clients[c].isAlive
    ensures r.state.users == s.users && r.state.history == s.history && r.out == []
  {
    Step(s.(clients := s.clients[c := s.clients[c].(isAlive := true)]), [])
  }

  /** One connection's part of the interval body: terminated if it has not answered, else marked not alive (and pinged). */
  function TickConn(conn: Conn): (r: Conn)
    ensures r.userId == conn.userId
    ensures conn.readyState == Closed ==> r == conn
    ensures conn.readyState != Closed && !conn.isAlive ==> r == conn.(readyState := Closing)
    ensures conn.readyState != Closed && conn.isAlive ==> r == conn.(isAlive := false)
    ensures r.readyState == Open ==> !r.isAlive
  {
    if conn.readyState == Closed then conn
    else if !conn.isAlive then conn.(readyState := Closing)
    else conn.(isAlive := false)
  }

  /** The actions of one interval: for each connection still in `wss.clients`, in order, a terminate or a ping. */
  function KeepaliveActions(clients: seq<Conn>): (out: seq<Action>)
    ensures forall k :: 0 <= k < |out| ==> (out[k].Ping? || out[k].Terminate?) && out[k].to < |clients|
    ensures forall i :: 0 <= i < |clients| ==>
      (Terminate(i) in out <==> clients[i].readyState != Closed && !clients[i].isAlive)
    ensures forall i :: 0 <= i < |clients| ==>
      (Ping(i) in out <==> clients[i].readyState != Closed && clients[i].isAlive)
    ensures forall k, l :: 0 <= k < l < |out| ==> out[k].to < out[l].to
    decreases |clients|
  {
    if |clients| == 0 then []
    else
      var n := |clients| - 1;
      var front := KeepaliveActions(clients[..n]);
      var conn := clients[n];
      var last := if conn.readyState == Closed then [] else if !conn.isAlive then [Terminate(n)] else [Ping(n)];
      assert forall i :: 0 <= i < n ==> clients[..n][i] == clients[i];
      assert Terminate(n) !in front && Ping(n) !in front;
      front + last
  }

  /**
   * The keepalive interval body. A connection that has not answered since
   * the previous interval is terminated; every other connection in
   * `wss.clients` is marked not alive and pinged. Nothing else changes.
   */
  function Tick(s: State): (r: Step)
    ensures r.state.users == s.users && r.state.history == s.history
    ensures |r.state.clients| == |s.clients|
    ensures forall a :: a in r.out ==> a.Ping? || a.Terminate?
    ensures forall k :: 0 <= k < |r.out| ==> r.out[k].to < |s.clients|
    ensures forall k, l :: 0 <= k < l < |r.out| ==> r.out[k].to < r.out[l].to
    ensures forall i :: 0 <= i < |s.clients| ==> r.state.clients[i].userId == s.clients[i].userId
    ensures forall i :: 0 <= i < |s.clients| && s.clients[i].readyState != Closed && !s.clients[i].isAlive ==>
      && r.state.clients[i] == s.clients[i].(readyState := Closing)
      && Terminate(i) in r.out && Ping(i) !in r.out
    ensures forall i :: 0 <= i < |s.clients| && s.clients[i].readyState != Closed && s.clients[i].isAlive ==>
      && r.state.clients[i] == s.clients[i].(isAlive := false)
      && Ping(i) in r.out && Terminate(i) !in r.out
    ensures forall i :: 0 <= i < |s.clients| && s.clients[i].readyState == Closed ==>
      && r.state.clients[i] == s.clients[i]
      && Ping(i) !in r.out && Terminate(i) !in r.out
  {
    var clients := seq(|s.clients|, i requires 0 <= i < |s.clients| => TickConn(s.clients[i]));
    Step(s.(clients := clients), KeepaliveActions(s.clients))
  }

  /** A connection that sends no pong between two intervals is terminated at the second, whatever its state before the first. */
  lemma SilentConnectionTerminated(s: State, i: nat)
    requires i < |s.clients| && s.clients[i].readyState == Open
    ensures Terminate(i) in Tick(Tick(s).state).out
  {
  }

  /** A connection that answers the first interval's ping is pinged, not terminated, at the second. */
  lemma AnsweringConnectionKept(s: State, i: nat)
    requires i < |s.clients| && s.clients[i].readyState == Open && s.clients[i].isAlive
    ensures var s2 := Pong(Tick(s).state, i).state;
      Ping(i) in Tick(s2).out && Terminate(i) !in Tick(s2).out
  {
  }

  // ---------------------------------------------------------------- traces

  /** The events the server reacts to; connections are named by position. */
  datatype Event =
    | OnConnection(userIdParam: Option<string>, userNameParam: Option<string>,
                   freshUserId: string, guestNumber: nat, welcomeId: string, now: string)
    | OnMessage(conn: nat, data: Option<Value>, errorId: string, now: string)
    | OnClose(conn: nat, noticeId: string, now: string)
    | OnPong(conn: nat)
    | OnInterval

  /** Connection `c` was accepted and has not yet closed, so its socket can still deliver events. */
  predicate Live(s: State, c: nat) {
    c < |s.clients| && s.clients[c].readyState != Closed
  }

  /**
   * Dispatches one event. A socket closes once and delivers nothing after
   * its `close` event, so an event for a connection the server never
   * accepted, or for one already closed, changes nothing.
   */
  function Handle(s: State, e: Event): Step {
    match e
    case OnConnection(idp, namep, uid, k, wid, now) => Join(s, idp, namep, uid, k, wid, now)
    case OnMessage(c, data, eid, now) => if Live(s, c) then Frame(s, c, data, eid, now) else Step(s, [])
    case OnClose(c, nid, now) => if Live(s, c) then Close(s, c, nid, now) else Step(s, [])
    case OnPong(c) => if Live(s, c) then Pong(s, c) else Step(s, [])
    case OnInterval => Tick(s)
  }

  /** A connection's `close` is handled once: a repeated one, or any later message or pong, does nothing. */
  lemma NothingAfterClose(s: State, c: nat, noticeId: string, now: string, e: Event)
    requires Live(s, c)
    requires e == OnClose(c, noticeId, now) || (e.OnMessage? && e.conn == c) || e == OnPong(c)
    ensures var after := Handle(s, OnClose(c, noticeId, now)).state;
      Handle(after, e) == Step(after, [])
  {
  }

  /** The state after the events `es`, and everything done along the way, in order. */
  function Run(s: State, es: seq<Event>): Step
    decreases |es|
  {
    if |es| == 0 then Step(s, [])
    else
      var first := Handle(s, es[0]);
      var rest := Run(first.state, es[1..]);
      Step(rest.state, first.out + rest.out)
  }

  /** The copy `e` stores in the history: one for an accepted frame, none for anything else. */
  function StoredBy(s: State, e: Event): seq<Value> {
    match e
    case OnMessage(c, Some(JObj(fields)), _, now) =>
      if Live(s, c) && HasRequiredFields(fields) then [JObj(Stamp(fields, now))] else []
    case _ => []
  }

  /** The copies stored by the events `es`, in arrival order. */
  function Stored(s: State, es: seq<Event>): seq<Value>
    decreases |es|
  {
    if |es| == 0 then [] else StoredBy(s, es[0]) + Stored(Handle(s, es[0]).state, es[1..])
  }

  /** Joining keeps the invariant: the new connection's user is the one just registered. */
  lemma JoinPreservesValid(s: State, userIdParam: Option<string>, userNameParam: Option<string>,
                           freshUserId: string, guestNumber: nat, welcomeId: string, now: string)
    requires Valid(s)
    ensures Valid(Join(s, userIdParam, userNameParam, freshUserId, guestNumber, welcomeId, now).state)
  {
    var r := Join(s, userIdParam, userNameParam, freshUserId, guestNumber, welcomeId, now);
    var id := OrElse(userIdParam, freshUserId);
    forall c | 0 <= c < |r.state.clients| ensures Has(r.state.users, r.state.clients[c].userId) {
      if c < |s.clients| {
        assert r.state.clients[c] == s.clients[c];
        assert Has(s.users, s.clients[c].userId);
      }
    }
  }

  /** Closing keeps the invariant: no user leaves the registry. */
  lemma ClosePreservesValid(s: State, c: nat, noticeId: string, now: string)
    requires Valid(s) && c < |s.clients|
    ensures Valid(Close(s, c, noticeId, now).state)
  {
    var r := Close(s, c, noticeId, now);
    forall i | 0 <= i < |r.state.clients| ensures Has(r.state.users, r.state.clients[i].userId) {
      assert r.state.clients[i].userId == s.clients[i].userId;
      assert Has(s.users, s.clients[i].userId);
    }
  }

  /** Every handler keeps the invariant. */
  lemma HandlePreservesValid(s: State, e: Event)
    requires Valid(s)
    ensures Valid(Handle(s, e).state)
  {
    match e
    case OnConnection(idp, namep, uid, k, wid, now) =>
      JoinPreservesValid(s, idp, namep, uid, k, wid, now);
    case OnMessage(c, data, eid, now) =>
    case OnClose(c, nid, now) =>
      if Live(s, c) {
        ClosePreservesValid(s, c, nid, now);
      }
    case OnPong(c) =>
      if Live(s, c) {
        var r := Pong(s, c);
        assert forall i :: 0 <= i < |s.clients| ==> r.state.clients[i].userId == s.clients[i].userId;
      }
    case OnInterval =>
  }

  /** Every trace keeps the invariant. */
  lemma {:induction false} RunPreservesValid(s: State, es: seq<Event>)
    requires Valid(s)
    ensures Valid(Run(s, es).state)
    decreases |es|
  {
    if |es| > 0 {
      HandlePreservesValid(s, es[0]);
      RunPreservesValid(Handle(s, es[0]).state, es[1..]);
    }
  }

  /** One event moves the history from `h` to the newest `MaxHistory` entries of `h` followed by what it stores. */
  lemma HandleHistory(s: State, e: Event)
    requires |s.history| <= History.MaxHistory
    ensures Handle(s, e).state.history == History.Newest(s.history + StoredBy(s, e), History.MaxHistory)
  {
    assert s.history + [] == s.history;
  }

  /**
   * Over any trace, the history holds the newest `MaxHistory` of the old
   * history followed by the accepted messages, in arrival order; from the
   * initial state, the newest `min(n, 50)` of the `n` accepted messages.
   */
  lemma {:induction false} RunHistory(s: State, es: seq<Event>)
    requires |s.history| <= History.MaxHistory
    ensures Run(s, es).state.history == History.Newest(s.history + Stored(s, es), History.MaxHistory)
    ensures |Run(s, es).state.history| <= History.MaxHistory
    decreases |es|
  {
    if |es| == 0 {
      assert s.history + [] == s.history;
    } else {
      var first := Handle(s, es[0]);
      var mid := first.state;
      var here := StoredBy(s, es[0]);
      var later := Stored(mid, es[1..]);
      RunUnfold(s, es);
      HandleHistory(s, es[0]);
      RunHistory(mid, es[1..]);
      History.NewestAppend(s.history + here, later, History.MaxHistory);
      AppendAssociative(s.history, here, later);
    }
  }

  /** Sequence concatenation is associative. */
  lemma AppendAssociative<T>(a: seq<T>, b: seq<T>, c: seq<T>)
    ensures a + b + c == a + (b + c)
  {
  }

  /** One step of Run and Stored on a non-empty trace. */
  lemma RunUnfold(s: State, es: seq<Event>)
    requires |es| > 0
    ensures Run(s, es).state == Run(Handle(s, es[0]).state, es[1..]).state
    ensures Stored(s, es) == StoredBy(s, es[0]) + Stored(Handle(s, es[0]).state, es[1..])
  {
  }

  /** The start-up state satisfies the invariant. */
  lemma InitialValid()
    ensures Valid(Initial)
  {
  }

  /**
   * From start-up, whatever happens, the invariant holds and the history is
   * the newest `MaxHistory` of the accepted messages, in arrival order.
   */
  lemma RunFromInitial(es: seq<Event>)
    ensures Valid(Run(Initial, es).state)
    ensures Run(Initial, es).state.history == History.Newest(Stored(Initial, es), History.MaxHistory)
  {
    InitialValid();
    RunPreservesValid(Initial, es);
    RunHistory(Initial, es);
    assert Initial.history + Stored(Initial, es) == Stored(Initial, es);
  }
}

=== FILE: socket_service.dfy ===
/**
 * The client's `WebSocketService`: the connection lifecycle and the
 * dispatch of incoming frames to the four callbacks. The socket task and the
 * ping timer are reduced to their presence. Every operation returns the new
 * service state and the effects it causes, in order: callbacks fired, and
 * operations on the socket task.
 */
module SocketService {
  import opened Wrappers
  import opened Json
  import Text
  import opened Messages
  import opened Users

  /** `webSocketTask != nil` and `pingTimer != nil`. */
  datatype Service = Service(hasTask: bool, hasPingTimer: bool)

  /** A freshly created service. */
  const Idle: Service := Service(false, false)

  /** `isConnected`: a task is present, whatever the socket's actual condition. */
  predicate IsConnected(s: Service) {
    s.hasTask
  }

  /** The parts of a `URL` the client builds and checks. */
  datatype Url = Url(scheme: string, host: string, port: int, path: string, query: seq<(string, string)>)

  /** What an operation causes: a callback fired, or an operation on the socket task. */
  datatype Effect =
    | OnConnected
    | OnDisconnected
    | OnReceiveMessage(message: Message)
    | OnUserListUpdate(users: seq<User>)
    | OpenTask(url: Url)
    | CancelTask
    | IssueReceive
    | SendFrame(payload: Value)
    | SendPing

  /** The effects that are callbacks to the owner of the service. */
  predicate IsCallback(e: Effect) {
    e.OnConnected? || e.OnDisconnected? || e.OnReceiveMessage? || e.OnUserListUpdate?
  }

  /** An operation's result. */
  datatype Step = Step(service: Service, effects: seq<Effect>)

  /** The schemes `connect` accepts. */
  predicate IsSocketScheme(scheme: string) {
    scheme == "ws" || scheme == "wss"
  }

  /**
   * `connect(url:userId:userName:)`. Any scheme other than `ws` or `wss` is
   * refused: no task is created, the state is left as it was (a task already
   * present stays), and `onDisconnected` fires. Otherwise a task is created
   * and resumed, the first receive is issued, the ping timer starts, and
   * `onConnected` fires at once, before any frame has arrived. A task already
   * present is replaced without being cancelled.
   */
  function Connect(s: Service, url: Url): (r: Step)
    ensures !IsSocketScheme(url.scheme) ==> r.service == s && r.effects == [OnDisconnected]
    ensures IsSocketScheme(url.scheme) ==>
      && IsConnected(r.service) && r.service.hasPingTimer
      && r.effects == [OpenTask(url), IssueReceive, OnConnected]
    ensures OnConnected in r.effects <==> IsSocketScheme(url.scheme)
  {
    if !IsSocketScheme(url.scheme) then Step(s, [OnDisconnected])
    else Step(Service(true, true), [OpenTask(url), IssueReceive, OnConnected])
  }

  /**
   * `disconnect()`: the ping timer is stopped, the task (if any) is cancelled
   * and dropped, and `onDisconnected` fires, in every state.
   */
  function Disconnect(s: Service): (r: Step)
    ensures !IsConnected(r.service) && !r.service.hasPingTimer
    ensures r.effects == (if IsConnected(s) then [CancelTask] else []) + [OnDisconnected]
  {
    Step(Idle, (if s.hasTask then [CancelTask] else []) + [OnDisconnected])
  }

  /** Disconnecting twice leaves the same state as disconnecting once; the second call only fires `onDisconnected` again. */
  lemma DisconnectIdempotent(s: Service)
    ensures var once := Disconnect(s).service;
      Disconnect(once).service == once && Disconnect(once).effects == [OnDisconnected]
  {
  }

  /** `send(message:)`: the encoding, with the encoder's default date strategy, is sent on the task if there is one. */
  function Send(s: Service, m: Message): (r: Step)
    ensures r.service == s
    ensures IsConnected(s) ==> r.effects == [SendFrame(Encode(m, DeferredToDate))]
    ensures !IsConnected(s) ==> r.effects == []
  {
    Step(s, if s.hasTask then [SendFrame(Encode(m, DeferredToDate))] else [])
  }

  /** `ping()`, fired by the timer: a ping on the task if there is one. */
  function Ping(s: Service): (r: Step)
    ensures r.service == s
    ensures r.effects == if IsConnected(s) then [SendPing] else []
  {
    Step(s, if s.hasTask then [SendPing] else [])
  }

  /** A timer tick pings after a successful connect and never after a disconnect. */
  lemma PingFollowsConnection(s: Service, url: Url)
    ensures IsSocketScheme(url.scheme) ==> Ping(Connect(s, url).service).effects == [SendPing]
    ensures Ping(Disconnect(s).service).effects == []
  {
  }

  /** The completion of a ping that failed: the failure is only logged, so nothing changes and nothing fires. */
  function PingFailed(s: Service): (r: Step)
    ensures r.service == s && r.effects == []
    ensures IsConnected(r.service) == IsConnected(s)
  {
    Step(s, [])
  }

  // ---------------------------------------------------------------- receiving

  /** A frame as the task delivers it, with `payload` what `JSONDecoder` parses from it (`None` when it is not JSON). */
  datatype Frame =
    | TextFrame(text: string, payload: Option<Value>)
    | DataFrame(payload: Option<Value>)
    | UnknownFrame

  /** The result handed to a receive's completion handler. */
  datatype ReceiveResult = Received(frame: Frame) | ReceiveFailed

  /** The substring that routes a text frame to the roster decoder. */
  const UserListMarker: string := "\"type\":\"userList\""

  /** Decoding a `Message` from a frame with the `.iso8601` date strategy and the platform formatter `parseIso`. */
  function DecodeMessageFrom(payload: Option<Value>, parseIso: string -> Option<Instant>): Option<Message> {
    match payload
    case Some(v) => Decode(v, v' => Iso8601(parseIso, v'))
    case None => None
  }

  /** Decoding a `UserListResponse` from a frame. */
  function DecodeUserListFrom(payload: Option<Value>): Option<UserListResponse> {
    match payload
    case Some(v) => DecodeUserList(v)
    case None => None
  }

  /**
   * `handleIncomingMessage(_:)`. A text containing `"type":"userList"` is
   * decoded only as a roster and its users go, unchanged and in order, to
   * `onUserListUpdate`; any other text is decoded only as a chat message for
   * `onReceiveMessage`. A decoding failure fires nothing.
   */
  function HandleText(text: string, payload: Option<Value>, parseIso: string -> Option<Instant>): (effects: seq<Effect>)
    ensures |effects| <= 1
    ensures Text.Contains(text, UserListMarker) ==>
      && (forall e :: e in effects ==> e.OnUserListUpdate?)
      && (effects != [] <==> DecodeUserListFrom(payload).Some?)
      && (effects != [] ==> effects[0].users == DecodeUserListFrom(payload).value.users)
    ensures !Text.Contains(text, UserListMarker) ==>
      && (forall e :: e in effects ==> e.OnReceiveMessage?)
      && (effects != [] <==> DecodeMessageFrom(payload, parseIso).Some?)
      && (effects != [] ==> Some(effects[0].message) == DecodeMessageFrom(payload, parseIso))
  {
    if Text.Contains(text, UserListMarker) then
      match DecodeUserListFrom(payload)
      case Some(response) => [OnUserListUpdate(response.users)]
      case None => []
    else
      match DecodeMessageFrom(payload, parseIso)
      case Some(m) => [OnReceiveMessage(m)]
      case None => []
  }

  /** `handleIncomingData(_:)`: binary frames are always decoded as chat messages, never as rosters. */
  function HandleData(payload: Option<Value>, parseIso: string -> Option<Instant>): (effects: seq<Effect>)
    ensures |effects| <= 1
    ensures forall e :: e in effects ==> e.OnReceiveMessage?
    ensures effects != [] <==> DecodeMessageFrom(payload, parseIso).Some?
    ensures effects != [] ==> Some(effects[0].message) == DecodeMessageFrom(payload, parseIso)
  {
    match DecodeMessageFrom(payload, parseIso)
    case Some(m) => [OnReceiveMessage(m)]
    case None => []
  }

  /** The callbacks one delivered frame causes; a frame of an unknown kind causes none. */
  function Dispatch(frame: Frame, parseIso: string -> Option<Instant>): seq<Effect> {
    match frame
    case TextFrame(text, payload) => HandleText(text, payload, parseIso)
    case DataFrame(payload) => HandleData(payload, parseIso)
    case UnknownFrame => []
  }

  /**
   * The completion handler of `receiveMessage()`. A delivered frame is
   * dispatched and the next receive is issued on the current task (there is
   * none to issue it on after a disconnect); a failure disconnects.
   */
  function ReceiveCompleted(s: Service, result: ReceiveResult, parseIso: string -> Option<Instant>): (r: Step)
    ensures result.Received? ==> r.service == s
    ensures result.Received? ==>
      r.effects == Dispatch(result.frame, parseIso) + (if IsConnected(s) then [IssueReceive] else [])
    ensures result.ReceiveFailed? ==> r == Disconnect(s)
  {
    match result
    case Received(frame) => Step(s, Dispatch(frame, parseIso) + (if s.hasTask then [IssueReceive] else []))
    case ReceiveFailed => Disconnect(s)
  }

  /** A frame that does not decode fires no callback, and a connected service keeps receiving. */
  lemma UndecodableFrameKeepsLoop(s: Service, frame: Frame, parseIso: string -> Option<Instant>)
    requires Dispatch(frame, parseIso) == []
    requires IsConnected(s)
    ensures ReceiveCompleted(s, Received(frame), parseIso) == Step(s, [IssueReceive])
  {
  }

  /** A binary frame never updates the roster, even when it holds a well-formed roster. */
  lemma BinaryFrameNeverRoster(payload: Option<Value>, parseIso: string -> Option<Instant>)
    ensures forall e :: e in Dispatch(DataFrame(payload), parseIso) ==> !e.OnUserListUpdate?
  {
  }

  /** The roster's `type` value is never inspected: any string tag routes and delivers alike. */
  lemma RosterTagIgnored(text: string, fields: map<string, Value>, tag: string, parseIso: string -> Option<Instant>)
    requires Text.Contains(text, UserListMarker)
    requires "type" in fields && fields["type"].JStr?
    ensures HandleText(text, Some(JObj(fields)), parseIso) == HandleText(text, Some(JObj(fields["type" := JStr(tag)])), parseIso)
  {
    var g := fields["type" := JStr(tag)];
    assert Field(g, "users") == Field(fields, "users");
  }
}

=== FILE: text.dfy ===
/** The few string operations the chat code relies on. */
module Text {

  /**
   * Membership in Foundation's `CharacterSet.whitespacesAndNewlines`: the
   * Unicode separators (general categories Zs, Zl and Zp), the controls
   * U+0009 through U+000D, and U+0085. The ideographic space U+3000 is one
   * of them.
   */
  predicate IsWhitespaceOrNewline(c: char) {
    || ('\U{9}' <= c <= '\U{D}')
    || c == ' '
    || c == '\U{85}'
    || c == '\U{A0}'
    || c == '\U{1680}'
    || ('\U{2000}' <= c <= '\U{200A}')
    || c == '\U{2028}'
    || c == '\U{2029}'
    || c == '\U{202F}'
    || c == '\U{205F}'
    || c == '\U{3000}'
  }

  /** Every character of `s` is whitespace or a newline (the empty string included). */
  predicate IsBlank(s: string) {
    forall i :: 0 <= i < |s| ==> IsWhitespaceOrNewline(s[i])
  }

  /** Drops leading whitespace and newlines. */
  function TrimStart(s: string): (r: string)
    ensures exists k :: 0 <= k <= |s| && r == s[k..] && IsBlank(s[..k])
    ensures r == [] || !IsWhitespaceOrNewline(r[0])
    decreases |s|
  {
    if |s| > 0 && IsWhitespaceOrNewline(s[0]) then
      var r := TrimStart(s[1..]);
      ghost var k :| 0 <= k <= |s[1..]| && r == s[1..][k..] && IsBlank(s[1..][..k]);
      assert r == s[k + 1..];
      assert IsBlank(s[..k + 1]) by {
        forall i | 0 <= i < k + 1 ensures IsWhitespaceOrNewline(s[i]) {
          if i > 0 { assert s[i] == s[1..][..k][i - 1]; }
        }
      }
      r
    else
      assert s == s[0..] && s[..0] == [];
      s
  }

  /** Drops trailing whitespace and newlines. */
  function TrimEnd(s: string): (r: string)
    ensures exists k :: 0 <= k <= |s| && r == s[..k] && IsBlank(s[k..])
    ensures r == [] || !IsWhitespaceOrNewline(r[|r| - 1])
    decreases |s|
  {
    if |s| > 0 && IsWhitespaceOrNewline(s[|s| - 1]) then
      var p := s[..|s| - 1];
      var r := TrimEnd(p);
      ghost var k :| 0 <= k <= |p| && r == p[..k] && IsBlank(p[k..]);
      assert r == s[..k];
      assert IsBlank(s[k..]) by {
        forall i | 0 <= i < |s| - k ensures IsWhitespaceOrNewline(s[k..][i]) {
          if i < |p| - k { assert s[k..][i] == p[k..][i]; }
        }
      }
      r
    else
      assert s == s[..|s|] && s[|s|..] == [];
      s
  }

  /** `r` is the part of `s` from `i` to `j`, with only whitespace and newlines around it. */
  predicate IsCore(s: string, r: string, i: int, j: int) {
    0 <= i <= j <= |s| && r == s[i..j] && IsBlank(s[..i]) && IsBlank(s[j..])
  }

  /**
   * Swift's `trimmingCharacters(in: .whitespacesAndNewlines)`: the middle of
   * `s` between a blank prefix and a blank suffix, neither starting nor
   * ending with whitespace or a newline.
   */
  function Trim(s: string): (r: string)
    ensures exists i, j :: IsCore(s, r, i, j)
    ensures r == [] || (!IsWhitespaceOrNewline(r[0]) && !IsWhitespaceOrNewline(r[|r| - 1]))
  {
    var t := TrimStart(s);
    var r := TrimEnd(t);
    TrimIsCore(s, t, r);
    r
  }

  /** Trimming the start and then the end leaves a core of `s`. */
  lemma TrimIsCore(s: string, t: string, r: string)
    requires t == TrimStart(s) && r == TrimEnd(t)
    ensures exists i, j :: IsCore(s, r, i, j)
    ensures r == [] || (!IsWhitespaceOrNewline(r[0]) && !IsWhitespaceOrNewline(r[|r| - 1]))
  {
    var i :| 0 <= i <= |s| && t == s[i..] && IsBlank(s[..i]);
    var j :| 0 <= j <= |t| && r == t[..j] && IsBlank(t[j..]);
    CoreOfCore(s, t, r, i, j);
  }

  /** A core of a suffix of `s` after a blank prefix is a core of `s`. */
  lemma CoreOfCore(s: string, t: string, r: string, i: nat, j: nat)
    requires i <= |s| && t == s[i..] && IsBlank(s[..i])
    requires j <= |t| && r == t[..j] && IsBlank(t[j..])
    ensures IsCore(s, r, i, i + j)
  {
    assert s[i + j..] == t[j..];
  }

  /** Trimming leaves nothing exactly when the string is blank. */
  lemma TrimEmptyIffBlank(s: string)
    ensures Trim(s) == [] <==> IsBlank(s)
  {
    var t := TrimStart(s);
    var k :| 0 <= k <= |s| && t == s[k..] && IsBlank(s[..k]);
    var j :| 0 <= j <= |t| && TrimEnd(t) == t[..j] && IsBlank(t[j..]);
    if Trim(s) == [] {
      assert j == 0 && t[j..] == t;
      assert t == [];
      forall i | 0 <= i < |s| ensures IsWhitespaceOrNewline(s[i]) {
        assert s[i] == s[..k][i];
      }
    } else {
      assert t != [];
      assert !IsWhitespaceOrNewline(t[0]);
      assert t[0] == s[k];
    }
  }

  /** Swift's `String.contains(_:)` with a string argument: `pattern` occurs as a contiguous run of `text`. */
  predicate Contains(text: string, pattern: string)
    decreases |text|
  {
    pattern <= text || (|text| > 0 && Contains(text[1..], pattern))
  }

  /** `pattern` is the slice of `text` that starts at position `i`. */
  predicate OccursAt(text: string, pattern: string, i: int) {
    0 <= i <= |text| - |pattern| && text[i..i + |pattern|] == pattern
  }

  /** `Contains` is the usual notion: `pattern` occurs in `text` at some position. */
  lemma {:induction false} ContainsIffOccurs(text: string, pattern: string)
    ensures Contains(text, pattern) <==> exists i :: OccursAt(text, pattern, i)
    decreases |text|
  {
    if pattern <= text {
      assert OccursAt(text, pattern, 0);
    } else if |text| > 0 {
      ContainsIffOccurs(text[1..], pattern);
      if exists i :: OccursAt(text, pattern, i) {
        var i :| OccursAt(text, pattern, i);
        if i > 0 {
          assert text[1..][i - 1..i - 1 + |pattern|] == text[i..i + |pattern|];
          assert OccursAt(text[1..], pattern, i - 1);
        }
      }
      if Contains(text[1..], pattern) {
        var i :| OccursAt(text[1..], pattern, i);
        assert text[1..][i..i + |pattern|] == text[i + 1..i + 1 + |pattern|];
        assert OccursAt(text, pattern, i + 1);
      }
    }
  }

  /** The decimal digit for `d`. */
  function Digit(d: nat): (c: char)
    requires d < 10
    ensures '0' <= c <= '9'
  {
    "0123456789"[d]
  }

  /** The numeric value of a decimal digit character. */
  function DigitValue(c: char): (d: nat)
    requires '0' <= c <= '9'
    ensures d < 10
  {
    (c as int - '0' as int) as nat
  }

  /** Every character of `s` is a decimal digit. */
  predicate AllDigits(s: string) {
    forall i :: 0 <= i < |s| ==> '0' <= s[i] <= '9'
  }

  /** JavaScript's rendering of a non-negative integer inside a template string. */
  function Decimal(n: nat): (s: string)
    ensures |s| > 0 && AllDigits(s)
    ensures n > 0 ==> s[0] != '0'
    ensures n < 10 <==> |s| == 1
    decreases n
  {
    if n < 10 then [Digit(n)] else Decimal(n / 10) + [Digit(n % 10)]
  }

  /** The value of a string of decimal digits; the inverse of Decimal. */
  function DecimalValue(s: string): nat
    requires AllDigits(s)
  {
    if |s| == 0 then 0 else 10 * DecimalValue(s[..|s| - 1]) + DigitValue(s[|s| - 1])
  }

  /** Reading back the rendering of `n` gives `n`. */
  lemma {:induction false} DecimalRoundTrip(n: nat)
    ensures DecimalValue(Decimal(n)) == n
    decreases n
  {
    var s := Decimal(n);
    if n < 10 {
      assert DigitValue(Digit(n)) == n by {
        assert "0123456789"[n] as int == '0' as int + n;
      }
    } else {
      DecimalRoundTrip(n / 10);
      assert s[..|s| - 1] == Decimal(n / 10);
      assert DigitValue(Digit(n % 10)) == n % 10 by {
        assert "0123456789"[n % 10] as int == '0' as int + n % 10;
      }
    }
  }
}

=== FILE: users.dfy ===
/**
 * The client's `User` record, whose equality compares identifiers only, and
 * the roster payload `UserListResponse` it is decoded from.
 */
module Users {
  import opened Wrappers
  import opened Json

  /** `id` and `name` are `let` constants; `isOnline` is a `var` defaulting to true. */
  datatype User = User(id: string, name: string, isOnline: bool)

  /** The memberwise initialiser that leaves `isOnline` at its default. */
  function NewUser(id: string, name: string): (u: User)
    ensures u.id == id && u.name == name
    ensures u.isOnline
  {
    User(id, name, true)
  }

  /** Assigning the one mutable property. */
  function WithOnline(u: User, online: bool): (r: User)
    ensures r.id == u.id && r.name == u.name && r.isOnline == online
  {
    u.(isOnline := online)
  }

  /** The custom `==`: two users are equal exactly when their identifiers are. */
  predicate Equal(a: User, b: User) {
    a.id == b.id
  }

  /** Name and presence play no part in equality. */
  lemma EqualIgnoresNameAndPresence(a: User, name: string, online: bool)
    ensures Equal(a, User(a.id, name, online))
    ensures Equal(a, WithOnline(a, online))
  {
  }

  /** Users with different identifiers are never equal. */
  lemma DifferentIdsUnequal(a: User, b: User)
    requires a.id != b.id
    ensures !Equal(a, b)
  {
  }

  /** `==` is reflexive, symmetric and transitive, hence an equivalence. */
  lemma EqualIsEquivalence(a: User, b: User, c: User)
    ensures Equal(a, a)
    ensures Equal(a, b) <==> Equal(b, a)
    ensures Equal(a, b) && Equal(b, c) ==> Equal(a, c)
  {
  }

  /** The keys a roster entry is read from. */
  const UserKeys: set<string> := {"id", "name", "isOnline"}

  /**
   * The synthesised `init(from:)` of `User`. The synthesised decoder ignores
   * the default value of a `var`, so `isOnline` must be present like the rest.
   */
  function DecodeUser(v: Value): (r: Option<User>)
    ensures r.Some? <==>
      v.JObj? && StringAt(v.fields, "id").Some? && StringAt(v.fields, "name").Some? && BoolAt(v.fields, "isOnline").Some?
    ensures r.Some? ==>
      && v.fields["id"] == JStr(r.value.id)
      && v.fields["name"] == JStr(r.value.name)
      && v.fields["isOnline"] == JBool(r.value.isOnline)
  {
    if !v.JObj? then None
    else
      match (StringAt(v.fields, "id"), StringAt(v.fields, "name"), BoolAt(v.fields, "isOnline"))
      case (Some(id), Some(name), Some(online)) => Some(User(id, name, online))
      case _ => None
  }

  /** Decoding `[User]`: every element must decode; the result keeps the array's order. */
  function DecodeUsers(items: seq<Value>): (r: Option<seq<User>>)
    ensures r.Some? <==> forall i :: 0 <= i < |items| ==> DecodeUser(items[i]).Some?
    ensures r.Some? ==> |r.value| == |items| && forall i :: 0 <= i < |items| ==> DecodeUser(items[i]) == Some(r.value[i])
    decreases |items|
  {
    if |items| == 0 then Some([])
    else
      var n := |items| - 1;
      match (DecodeUsers(items[..n]), DecodeUser(items[n]))
      case (Some(us), Some(u)) => Some(us + [u])
      case _ => None
  }

  /** Two objects that agree on the keys of a roster entry decode alike: extra keys are ignored. */
  lemma DecodeUserIgnoresOtherKeys(f: map<string, Value>, g: map<string, Value>)
    requires forall k :: k in UserKeys ==> (k in f <==> k in g)
    requires forall k :: k in UserKeys && k in f ==> f[k] == g[k]
    ensures DecodeUser(JObj(f)) == DecodeUser(JObj(g))
  {
    assert "id" in UserKeys && "name" in UserKeys && "isOnline" in UserKeys;
  }

  /** The roster payload `{type, users}`. The tag is decoded but nothing ever inspects it. */
  datatype UserListResponse = UserListResponse(kind: string, users: seq<User>)

  /** The keys of a roster payload. */
  const ResponseKeys: set<string> := {"type", "users"}

  /** The synthesised `init(from:)` of `UserListResponse`: any string tag is accepted. */
  function DecodeUserList(v: Value): (r: Option<UserListResponse>)
    ensures r.Some? <==>
      && v.JObj? && StringAt(v.fields, "type").Some?
      && "users" in v.fields && v.fields["users"].JArr?
      && DecodeUsers(v.fields["users"].items).Some?
    ensures r.Some? ==>
      && v.fields["type"] == JStr(r.value.kind)
      && Some(r.value.users) == DecodeUsers(v.fields["users"].items)
  {
    if !v.JObj? then None
    else
      match (StringAt(v.fields, "type"), Field(v.fields, "users"))
      case (Some(kind), Some(JArr(items))) =>
        (match DecodeUsers(items)
         case Some(us) => Some(UserListResponse(kind, us))
         case None => None)
      case _ => None
  }
}

=== FILE: view_model.dfy ===
/**
 * The client's `ChatViewModel`: the state the chat screen shows, the four
 * callbacks it installs on the socket service, and the user's actions.
 * The hops to the main queue are flattened: callbacks are applied in the
 * order the service fires them.
 */
module ViewModel {
  import opened Wrappers
  import opened Json
  import Text
  import opened Messages
  import opened Users
  import opened MessageList
  import S = SocketService

  /** The observable state, and the service the view model owns. */
  datatype ChatViewModel = ChatViewModel(
    messages: seq<Message>,
    newMessageText: string,
    isConnected: bool,
    users: seq<User>,
    currentUser: User,
    errorMessage: Option<string>,
    service: S.Service)

  /** The error shown after a disconnection. */
  const DisconnectedNotice: string := "接続が切断されました。再接続してください。"

  /** The default user name: "ユーザー" followed by a random number from 1000 to 9999. */
  function DefaultUserName(k: nat): (name: string)
    requires 1000 <= k <= 9999
    ensures |name| > 4 && name[..4] == "ユーザー"
    ensures Text.AllDigits(name[4..]) && Text.DecimalValue(name[4..]) == k
  {
    var name := "ユーザー" + Text.Decimal(k);
    assert name[4..] == Text.Decimal(k);
    Text.DecimalRoundTrip(k);
    name
  }

  /** `init(userId:userName:)`: the current user is online by default, and nothing is connected yet. */
  function Init(userId: string, userName: string): (vm: ChatViewModel)
    ensures vm.messages == [] && vm.newMessageText == "" && vm.users == []
    ensures !vm.isConnected && vm.errorMessage.None? && !S.IsConnected(vm.service)
    ensures vm.currentUser.id == userId && vm.currentUser.name == userName && vm.currentUser.isOnline
  {
    ChatViewModel([], "", false, [], NewUser(userId, userName), None, S.Idle)
  }

  // ---------------------------------------------------------------- callbacks

  /** The `onReceiveMessage` handler: the message is appended, marked as the user's own exactly when the sender is the current user. */
  function ReceivedMessage(vm: ChatViewModel, m: Message): (r: ChatViewModel)
    ensures |r.messages| == |vm.messages| + 1 && r.messages[..|vm.messages|] == vm.messages
    ensures var added := r.messages[|vm.messages|];
      added.id == m.id && added.senderId == m.senderId && added.content == m.content && added.timestamp == m.timestamp
      && (added.isFromCurrentUser <==> m.senderId == vm.currentUser.id)
    ensures r.(messages := vm.messages) == vm
  {
    vm.(messages := vm.messages + [WithFlag(m, m.senderId == vm.currentUser.id)])
  }

  /** Every message is flagged as the user's own exactly when its sender is the current user. */
  predicate FlagsFollowSender(vm: ChatViewModel) {
    forall m :: m in vm.messages ==> (m.isFromCurrentUser <==> m.senderId == vm.currentUser.id)
  }

  /** The flags agree with the senders in a new view model, and after a message is received. */
  lemma ReceivedKeepsFlags(userId: string, userName: string, vm: ChatViewModel, m: Message)
    requires FlagsFollowSender(vm)
    ensures FlagsFollowSender(Init(userId, userName))
    ensures FlagsFollowSender(ReceivedMessage(vm, m))
  {
  }

  /** The `onConnected` handler. */
  function Connected(vm: ChatViewModel): (r: ChatViewModel)
    ensures r.isConnected && r.errorMessage.None?
    ensures r.(isConnected := vm.isConnected, errorMessage := vm.errorMessage) == vm
  {
    vm.(isConnected := true, errorMessage := None)
  }

  /** The `onDisconnected` handler: not connected, and an invitation to reconnect is shown. */
  function Disconnected(vm: ChatViewModel): (r: ChatViewModel)
    ensures !r.isConnected && r.errorMessage == Some(DisconnectedNotice)
    ensures r.(isConnected := vm.isConnected, errorMessage := vm.errorMessage) == vm
  {
    vm.(isConnected := false, errorMessage := Some(DisconnectedNotice))
  }

  /** The `onUserListUpdate` handler: the roster is replaced wholesale; the messages stay. */
  function UserListUpdated(vm: ChatViewModel, users: seq<User>): (r: ChatViewModel)
    ensures r.users == users && r.messages == vm.messages
    ensures r.(users := vm.users) == vm
  {
    vm.(users := users)
  }

  /** Runs the handler of a callback effect; any other effect leaves the view model alone. */
  function Apply(vm: ChatViewModel, e: S.Effect): ChatViewModel {
    match e
    case OnConnected => Connected(vm)
    case OnDisconnected => Disconnected(vm)
    case OnReceiveMessage(m) => ReceivedMessage(vm, m)
    case OnUserListUpdate(users) => UserListUpdated(vm, users)
    case _ => vm
  }

  /** Runs the handlers of the callback effects, in order. */
  function ApplyAll(vm: ChatViewModel, es: seq<S.Effect>): ChatViewModel
    decreases |es|
  {
    if |es| == 0 then vm else ApplyAll(Apply(vm, es[0]), es[1..])
  }

  /** The effects that reach the socket task rather than the view model, in order. */
  function Transport(es: seq<S.Effect>): (r: seq<S.Effect>)
    ensures forall e :: e in r ==> e in es && !S.IsCallback(e)
    decreases |es|
  {
    if |es| == 0 then [] else (if S.IsCallback(es[0]) then [] else [es[0]]) + Transport(es[1..])
  }

  /** A view-model action's result: the new state and the effects on the socket task. */
  datatype Outcome = Outcome(model: ChatViewModel, sent: seq<S.Effect>)

  /** Takes a service step: the new service state is stored and its callbacks run. */
  function Deliver(vm: ChatViewModel, st: S.Step): Outcome {
    Outcome(ApplyAll(vm.(service := st.service), st.effects), Transport(st.effects))
  }

  /** Running the callbacks of `a + b` runs those of `a`, then those of `b`. */
  lemma {:induction false} ApplyAllAppend(vm: ChatViewModel, a: seq<S.Effect>, b: seq<S.Effect>)
    ensures ApplyAll(vm, a + b) == ApplyAll(ApplyAll(vm, a), b)
    decreases |a|
  {
    if |a| == 0 {
      assert a + b == b;
    } else {
      assert (a + b)[1..] == a[1..] + b;
      ApplyAllAppend(Apply(vm, a[0]), a[1..], b);
    }
  }

  /** The transport effects of `a + b` are those of `a` followed by those of `b`. */
  lemma {:induction false} TransportAppend(a: seq<S.Effect>, b: seq<S.Effect>)
    ensures Transport(a + b) == Transport(a) + Transport(b)
    decreases |a|
  {
    if |a| == 0 {
      assert a + b == b;
    } else {
      assert (a + b)[1..] == a[1..] + b;
      TransportAppend(a[1..], b);
    }
  }

  /** Effects that are not callbacks leave the view model alone and all reach the socket task. */
  lemma {:induction false} NoCallbacks(vm: ChatViewModel, es: seq<S.Effect>)
    requires forall e :: e in es ==> !S.IsCallback(e)
    ensures ApplyAll(vm, es) == vm && Transport(es) == es
    decreases |es|
  {
    if |es| > 0 {
      assert es[0] in es;
      assert forall e :: e in es[1..] ==> e in es;
      NoCallbacks(vm, es[1..]);
      assert es == [es[0]] + es[1..];
    }
  }

  /** A single callback runs its handler and reaches no socket task. */
  lemma OneCallback(vm: ChatViewModel, e: S.Effect)
    requires S.IsCallback(e)
    ensures ApplyAll(vm, [e]) == Apply(vm, e) && Transport([e]) == []
  {
    assert [e][1..] == [];
  }

  /** Delivers a step whose one callback `cb` comes after its transport effects `ts`. */
  lemma DeliverSplit(vm: ChatViewModel, st: S.Step, ts: seq<S.Effect>, cb: S.Effect)
    requires st.effects == ts + [cb] && S.IsCallback(cb)
    requires forall e :: e in ts ==> !S.IsCallback(e)
    ensures Deliver(vm, st) == Outcome(Apply(vm.(service := st.service), cb), ts)
  {
    ApplyAllAppend(vm.(service := st.service), ts, [cb]);
    TransportAppend(ts, [cb]);
    NoCallbacks(vm.(service := st.service), ts);
    OneCallback(vm.(service := st.service), cb);
  }

  /** Delivers a step whose one callback `cb` comes before its transport effects `ts`. */
  lemma DeliverCallbackFirst(vm: ChatViewModel, st: S.Step, cb: S.Effect, ts: seq<S.Effect>)
    requires st.effects == [cb] + ts && S.IsCallback(cb)
    requires forall e :: e in ts ==> !S.IsCallback(e)
    ensures Deliver(vm, st) == Outcome(Apply(vm.(service := st.service), cb), ts)
  {
    ApplyAllAppend(vm.(service := st.service), [cb], ts);
    TransportAppend([cb], ts);
    OneCallback(vm.(service := st.service), cb);
    NoCallbacks(Apply(vm.(service := st.service), cb), ts);
  }

  // ---------------------------------------------------------------- actions

  /** The address `connect()` builds: scheme `ws`, the local server, and the current user's identity as query items. */
  function ServerUrl(u: User): (url: S.Url)
    ensures url.scheme == "ws"
    ensures url.query == [("userId", u.id), ("userName", u.name)]
  {
    S.Url("ws", "localhost", 8080, "/chat", [("userId", u.id), ("userName", u.name)])
  }

  /**
   * `connect()`: the socket is opened on the `ws` address, so the view model
   * is connected at once with no error, before any frame has arrived.
   */
  function Connect(vm: ChatViewModel): (o: Outcome)
    ensures o.model.isConnected && o.model.errorMessage.None? && S.IsConnected(o.model.service)
    ensures o.model.(isConnected := vm.isConnected, errorMessage := vm.errorMessage, service := vm.service) == vm
    ensures o.sent == [S.OpenTask(ServerUrl(vm.currentUser)), S.IssueReceive]
  {
    var url := ServerUrl(vm.currentUser);
    var st := S.Connect(vm.service, url);
    DeliverSplit(vm, st, [S.OpenTask(url), S.IssueReceive], S.OnConnected);
    Deliver(vm, st)
  }

  /** `disconnect()`: never connected afterwards, with the reconnect invitation shown; the messages and roster stay. */
  function Disconnect(vm: ChatViewModel): (o: Outcome)
    ensures !o.model.isConnected && o.model.errorMessage == Some(DisconnectedNotice)
    ensures !S.IsConnected(o.model.service) && !o.model.service.hasPingTimer
    ensures o.model.(isConnected := vm.isConnected, errorMessage := vm.errorMessage, service := vm.service) == vm
    ensures o.sent == if S.IsConnected(vm.service) then [S.CancelTask] else []
  {
    var st := S.Disconnect(vm.service);
    DeliverSplit(vm, st, if S.IsConnected(vm.service) then [S.CancelTask] else [], S.OnDisconnected);
    Deliver(vm, st)
  }

  /** Disconnecting a second time changes nothing and cancels nothing. */
  lemma DisconnectTwice(vm: ChatViewModel)
    ensures var once := Disconnect(vm).model;
      Disconnect(once).model == once && Disconnect(once).sent == []
  {
  }

  /** The completion of a receive on the view model's service, with the platform ISO-8601 formatter `parseIso`. */
  function Receive(vm: ChatViewModel, result: S.ReceiveResult, parseIso: string -> Option<Instant>): Outcome {
    Deliver(vm, S.ReceiveCompleted(vm.service, result, parseIso))
  }

  /** A chat text frame that decodes is appended, flagged by sender, and the next receive follows. */
  lemma ReceiveChat(vm: ChatViewModel, text: string, payload: Option<Value>, parseIso: string -> Option<Instant>)
    requires !Text.Contains(text, S.UserListMarker)
    requires S.DecodeMessageFrom(payload, parseIso).Some?
    ensures var m := S.DecodeMessageFrom(payload, parseIso).value;
      var o := Receive(vm, S.Received(S.TextFrame(text, payload)), parseIso);
      o.model == ReceivedMessage(vm, m)
      && o.sent == if S.IsConnected(vm.service) then [S.IssueReceive] else []
  {
    var m := S.DecodeMessageFrom(payload, parseIso).value;
    assert S.HandleText(text, payload, parseIso) == [S.OnReceiveMessage(m)];
    DeliverCallbackFirst(vm, S.ReceiveCompleted(vm.service, S.Received(S.TextFrame(text, payload)), parseIso),
      S.OnReceiveMessage(m), if S.IsConnected(vm.service) then [S.IssueReceive] else []);
  }

  /** A roster text frame that decodes replaces the roster, in payload order, and leaves the messages alone. */
  lemma ReceiveRoster(vm: ChatViewModel, text: string, payload: Option<Value>, parseIso: string -> Option<Instant>)
    requires Text.Contains(text, S.UserListMarker)
    requires S.DecodeUserListFrom(payload).Some?
    ensures var o := Receive(vm, S.Received(S.TextFrame(text, payload)), parseIso);
      o.model == vm.(users := S.DecodeUserListFrom(payload).value.users)
  {
    var us := S.DecodeUserListFrom(payload).value.users;
    assert S.HandleText(text, payload, parseIso) == [S.OnUserListUpdate(us)];
    DeliverCallbackFirst(vm, S.ReceiveCompleted(vm.service, S.Received(S.TextFrame(text, payload)), parseIso),
      S.OnUserListUpdate(us), if S.IsConnected(vm.service) then [S.IssueReceive] else []);
  }

  /** A frame that fires no callback leaves the view model as it was; the receive loop goes on. */
  lemma ReceiveUndecodable(vm: ChatViewModel, frame: S.Frame, parseIso: string -> Option<Instant>)
    requires S.Dispatch(frame, parseIso) == []
    ensures Receive(vm, S.Received(frame), parseIso) == Outcome(vm, if S.IsConnected(vm.service) then [S.IssueReceive] else [])
  {
    var es := if S.IsConnected(vm.service) then [S.IssueReceive] else [];
    assert S.ReceiveCompleted(vm.service, S.Received(frame), parseIso).effects == es;
    NoCallbacks(vm, es);
  }

  /** A failed receive disconnects: the view model shows the reconnect invitation and its service has no task. */
  lemma ReceiveFailure(vm: ChatViewModel, parseIso: string -> Option<Instant>)
    ensures var o := Receive(vm, S.ReceiveFailed, parseIso);
      && !o.model.isConnected && o.model.errorMessage == Some(DisconnectedNotice)
      && !S.IsConnected(o.model.service) && o.model.messages == vm.messages
  {
    assert Receive(vm, S.ReceiveFailed, parseIso) == Disconnect(vm);
  }

  /**
   * `sendMessage()`. Text that trims to nothing is ignored. Otherwise the
   * untrimmed text is sent as a message from the current user, flagged as
   * its own, appended locally at once, and the input is cleared. The
   * connection flag is not consulted: without a task nothing goes out, yet
   * the message is still appended.
   */
  function SendMessage(vm: ChatViewModel, id: string, now: Instant): (o: Outcome)
    ensures Text.IsBlank(vm.newMessageText) ==> o.model == vm && o.sent == []
    ensures !Text.IsBlank(vm.newMessageText) ==>
      var m := Message(id, vm.currentUser.id, vm.newMessageText, now, true);
      && o.model == vm.(messages := vm.messages + [m], newMessageText := "")
      && o.sent == if S.IsConnected(vm.service) then [S.SendFrame(Encode(m, DeferredToDate))] else []
  {
    Text.TrimEmptyIffBlank(vm.newMessageText);
    if Text.Trim(vm.newMessageText) == [] then Outcome(vm, [])
    else
      var m := Message(id, vm.currentUser.id, vm.newMessageText, now, true);
      Outcome(vm.(messages := vm.messages + [m], newMessageText := ""), S.Send(vm.service, m).effects)
  }

  /** Sending keeps the flags in agreement with the senders. */
  lemma SendKeepsFlags(vm: ChatViewModel, id: string, now: Instant)
    requires FlagsFollowSender(vm)
    ensures FlagsFollowSender(SendMessage(vm, id, now).model)
  {
  }

  /** Sending behaves the same whatever `isConnected` says. */
  lemma SendIgnoresConnectedFlag(vm: ChatViewModel, flag: bool, id: string, now: Instant)
    ensures SendMessage(vm.(isConnected := flag), id, now).sent == SendMessage(vm, id, now).sent
    ensures SendMessage(vm.(isConnected := flag), id, now).model == SendMessage(vm, id, now).model.(isConnected := flag)
  {
  }

  /**
   * `deleteMessage(at:)`, on the local list only: the messages at the given
   * offsets are removed and the rest keep their order. Offsets out of range
   * make `remove(atOffsets:)` trap, so the caller must not pass them.
   */
  function DeleteMessages(vm: ChatViewModel, offsets: set<int>): (r: ChatViewModel)
    requires forall o :: o in offsets ==> 0 <= o < |vm.messages|
    ensures |r.messages| == |vm.messages| - |offsets| == |KeptIndices(|vm.messages|, offsets)|
    ensures forall k :: 0 <= k < |r.messages| ==>
      r.messages[k] == vm.messages[KeptIndices(|vm.messages|, offsets)[k]]
    ensures r.(messages := vm.messages) == vm
  {
    KeptCount(|vm.messages|, offsets);
    vm.(messages := RemoveOffsets(vm.messages, offsets))
  }

  /** Deleting keeps the flags in agreement with the senders. */
  lemma DeleteKeepsFlags(vm: ChatViewModel, offsets: set<int>)
    requires forall o :: o in offsets ==> 0 <= o < |vm.messages|
    requires FlagsFollowSender(vm)
    ensures FlagsFollowSender(DeleteMessages(vm, offsets))
  {
  }

  /**
   * `messageGroups()`: a single pass that closes the current group whenever
   * the sender changes. The result is the partition of the messages into
   * maximal runs by sender, which is unique (MessageList.RunPartitionUnique).
   */
  method MessageGroups(vm: ChatViewModel) returns (groups: seq<seq<Message>>)
    ensures IsRunPartition(groups, vm.messages)
    ensures vm.messages == [] <==> groups == []
  {
    var messages := vm.messages;
    groups := [];
    var currentGroup: seq<Message> := [];
    var currentSenderId: Option<string> := None;
    for i := 0 to |messages|
      invariant IsRunPartition(groups + (if currentGroup == [] then [] else [currentGroup]), messages[..i])
      invariant currentSenderId.None? <==> currentGroup == []
      invariant currentSenderId.Some? ==> currentGroup[0].senderId == currentSenderId.value
      invariant currentGroup == [] ==> groups == [] && i == 0
    {
      var message := messages[i];
      assert messages[..i + 1] == messages[..i] + [message];
      if currentSenderId.Some? && currentSenderId.value == message.senderId {
        var gs := groups + [currentGroup];
        AppendToLastRun(gs, messages[..i], message);
        assert gs[..|gs| - 1] == groups;
        currentGroup := currentGroup + [message];
      } else {
        if currentGroup != [] {
          groups := groups + [currentGroup];
        }
        AppendNewRun(groups, messages[..i], message);
        currentGroup := [message];
        currentSenderId := Some(message.senderId);
      }
    }
    if currentGroup != [] {
      groups := groups + [currentGroup];
    }
    assert messages[..|messages|] == messages;
  }
}

=== FILE: wrappers.dfy ===
/** The optional-value datatype shared by every module of the model. */
module Wrappers {

  /** Swift's `Optional`, and JavaScript's "present or `undefined`". */
  datatype Option<+T> = None | Some(value: T)
}
